=== FILE: README.md ===
# scale-by-display, modelled in Dafny

scale-by-display is a GNOME Shell extension. It picks the desktop's text
scaling factor, and optionally the dash-to-dock icon size, from a saved
*profile* whose set of monitors matches the monitors currently connected.
This project models its core in Dafny and proves properties of the model:

- `monitors.dfy` (module `Monitors`) turns a display-configuration reply into a monitor snapshot. It marks the monitors that logical monitors reference as active and records the primary one. In clone mode only the primary stays active.
- `identity.dfy` (module `Identity`) computes a topology's identifier. The identifier is the lexicographically sorted list of per-monitor keys `vendor-product[-serial]-active|inactive`.
- `profiles.dfy` (module `Profiles`) covers the `Profile` record, its match against the current identifier, and the profile manager. The manager handles the cached active profile, append/update/remove, re-reading the `profiles` setting, and persisting the list.
- `managed_connects.dfy` (module `ManagedConnects`) is the subscription registry: `connect` and `disconnectAll`.
- `extension.dfy` (module `Extension`) models the extension object as a state machine. It covers `enable`, `disable`, and the settings-changed and monitors-changed event paths, which read the settings and apply the scale, dock size and accessibility-icon visibility.
- `text.dfy`, `sorting.dfy`, `wrappers.dfy` and `shared.dfy` hold supporting definitions:
  - lexicographic string order and `join`;
  - an insertion sort, with the fact that a sorted permutation is unique;
  - `Option`/`Result`;
  - `DEFAULT_SCALING_FACTOR` and the identities of the objects the extension subscribes to.

Host objects become values:
- A D-Bus reply is `Reply = Ok(resource) | Err(message)`.
- The settings store is a record of optional values.
- The `profiles` setting is a parsed document (`Persisted`).
- Written settings are the last value written (`Outputs`).
- Signal handler ids come from a counter in the controller, since the host hands them out.

JavaScript object identity becomes explicit data:
- The primary monitor is an index into the snapshot.
- The cached active profile is `Unresolved`, `Slot(k)` (the list element at `k`), or `Detached(p)` (an object removed from the list while cached).

## Model

| member | source | states |
|---|---|---|
| Monitors.UpdateResourcesState | monitors.ts:100-164 | An error reply yields an empty snapshot with no primary and no `updated` signal. Otherwise one monitor per reply entry, with consecutive indices and copied specs and display name. The `updated` signal is emitted. Each monitor's `isPrimary` is the flag of the last logical monitor that references it, and false when none does. The recorded primary is the monitor found by the last reference from a primary logical monitor that finds one, and there is none when no such reference exists. Outside clone mode a monitor is active iff some logical monitor references it. In clone mode (one logical monitor, two or more referenced monitors) exactly the recorded primary is active. |
| Monitors.CloneScenario | monitors.ts:127-161 | One primary logical monitor mirroring two different monitors: the second becomes the primary. It is the only active monitor, and both keep `isPrimary` set. |
| Monitors.FindFrom | monitors.ts:133-140 | `find` by connector, vendor, product and serial returns the first position at or after `from` with those specs, or none when there is no such position. |
| Monitors.MarkFacts | monitors.ts:127-149 | Marking through a list of references sets active exactly the monitors that were already active or that some reference finds, and keeps indices and specs. A newly recorded primary is a monitor some primary reference finds, and one is recorded whenever such a reference finds a monitor. |
| Monitors.MarkLast | monitors.ts:127-149 | Handling the references in order leaves each monitor with the primary flag of the last reference that finds it. The recorded primary is the monitor found by the last primary reference that finds one. |
| Identity.Identifier | monitors.ts:175-187 | The identifier is sorted and is a permutation of the per-monitor keys, one per monitor (duplicates kept). |
| Identity.IdentifierPermutationInvariant | monitors.ts:175-187 | Reordering the monitors does not change the identifier. |
| Identity.IdentifierIgnoresSerials | monitors.ts:178-186 | Without serials, two topologies that agree position by position on vendor, product and active flag have the same identifier, whatever their serials, connectors, names and primary flags. |
| Sorting.Insert | monitors.ts:186 | Inserting into a sorted list keeps it sorted and adds exactly one element. |
| Sorting.Sort | monitors.ts:186 | The sorted result is ordered and is a permutation of the input. |
| Sorting.SortedUnique | monitors.ts:186 | Two sorted lists with the same elements are equal, so the sort's output depends only on the multiset. |
| Text.LeTransitive | monitors.ts:186 | The string order used by `sort` is transitive. Reflexivity, totality and antisymmetry are separate lemmas. |
| Profiles.NewProfile | profile.ts:23-34 | A profile serialises back to the record it was built from. Its key set holds exactly the keys of its monitors. |
| Profiles.MatchesAsWrittenOnDistinct | profile.ts:40-46 | On a duplicate-free identifier, the length-against-set-size and membership test is equivalent to key-set equality. |
| Profiles.MatchesAsWrittenMissesOwnTopology | profile.ts:32-46 | If two saved monitors share a key, the as-written test rejects the very topology the profile was saved from. |
| Profiles.TwinMonitorsMissAsWritten | profile.ts:40-46 | Concrete case: two monitors of the same make and model, serials off. |
| Profiles.MatchesAsWrittenAcceptsRepeat | profile.ts:40-46 | The as-written test accepts `[a, a]` for a profile with keys `{a, b}`, which set equality rejects. |
| Profiles.MatchesSameKeys | profile.ts:40-46 | The corrected matcher `Matches` accepts a profile iff the current monitors and the saved monitors have the same set of keys. |
| Profiles.MatchesOwnTopology | profile.ts:23-46 | The corrected matcher `Matches` accepts a profile for any reordering of the monitors it was saved from. |
| Profiles.GetActiveProfile | profile.ts:87-100 | A cached profile is returned as is. Otherwise the result is the first profile that `matchesCurrentMonitors`, as written, accepts for the current identifier, and it is cached. With no match, nothing changes and nothing is returned. Nothing but the cache ever changes. |
| Profiles.FirstMatchOnDistinct | profile.ts:40-46 | When no current key repeats, the first profile the store picks is exactly the first one the corrected matcher accepts. |
| Profiles.GetActiveProfileStable | profile.ts:87-100 | Asking twice returns the same profile, and the second call changes nothing. |
| Profiles.ParseEncode | profile.ts:129-143 | When every profile's key set was computed with the serial setting used for re-reading, re-reading what `#syncProfiles` writes gives back the same profile list. |
| Profiles.OnUpdate | profile.ts:122-139 | The cache is cleared and with-serials defaults to true. Unparsable data keeps the old list, logs an error and emits nothing. The new serial setting is installed even then, so the kept profiles may carry key sets computed under the old one. A document replaces the list: a missing `profiles` gives an empty list, otherwise one profile per entry that serialises back to it. A document emits `updated`. |
| Profiles.NewStore | profile.ts:69-80 | The constructor subscribes to the settings and then to the monitor snapshot, in that order, so `disconnectAll` will release exactly those two handlers. It then runs one update. Afterwards the cache is clear and the serial setting is the one read, defaulting to true. The list is the parsed one and `updated` is emitted; when the setting does not parse, the list is empty, an error is logged and nothing is emitted. |
| Profiles.AppendProfile | profile.ts:106-110 | The new profile, built from the given record with the store's serial setting, is added last, and earlier profiles are untouched. The cache still refers to the same profile, and the whole list is written. |
| Profiles.UpdateProfile | profile.ts:112-115 | An index outside the list fails, like `Object.assign` on `undefined`. Otherwise only the given fields of that profile change, and its monitors and keys stay. A cache on that profile sees the change, and the list is written. |
| Profiles.RemoveProfile | profile.ts:117-120 | Follows `splice(idx, 1)`. An in-range index removes exactly that profile. A negative index counts from the end. An index past the end removes nothing, and so does any index on an empty list, which leaves the store unchanged. The cache still refers to the same object, and the list is written. |
| Profiles.RemoveUndoesAppend | profile.ts:106-120 | Removing the profile just appended restores the store. |
| Profiles.MutationsRoundTrip | profile.ts:106-143 | When every profile's key set was computed with the store's current serial setting, the `changed` notification after append, update or remove re-reads exactly the in-memory list. |
| Profiles.Release | profile.ts:82-85 | `disconnectAll` disconnects every subscription of the manager, in order, and leaves none. |
| ManagedConnects.Connect | managed-connects.ts:6-15 | Fails iff the object is missing or has no `connect`. Otherwise the new id is appended to that object's ids, other objects are unchanged, and the registry keeps one entry per object. |
| ManagedConnects.DisconnectAll | managed-connects.ts:17-22 | Disconnects every (object, id) pair in insertion order and empties the registry. |
| ManagedConnects.AddPairs | managed-connects.ts:6-15 | A connection adds exactly one (object, id) pair to what a later `disconnectAll` disconnects. |
| ManagedConnects.PairsCount | managed-connects.ts:4-22 | Each (object, id) pair is disconnected as many times as the id was recorded for that object. |
| Extension.OnStateUpdate | extension.ts:77-126 | One pass re-reads the settings and writes the values of the active profile, or the defaults when there is none. The font scale is the profile's, else the configured default, else `DEFAULT_SCALING_FACTOR`. With dock integration on, the dock size is the profile's, else the configured one, and it is written only when there is one. With integration off the dock is left as it was. The accessibility icon is hidden exactly when the setting says so and shown otherwise. The profile manager changes only through `getActiveProfile`. |
| Extension.OnStateUpdateIdempotent | extension.ts:99-116 | A second pass with nothing changed gives the same controller. |
| Extension.FreshPassAppliesFirstMatch | extension.ts:77-126 | A pass after the cache was cleared writes the values of the first profile that `matchesCurrentMonitors` accepts, or the defaults when none is accepted. This covers the font scale, the dock size (including its default and the case where integration is off) and the accessibility icon. |
| Extension.EmptySnapshotPass | extension.ts:43-57 | At enable the monitor snapshot is still empty. Unless some profile was saved for no monitors, no profile matches and the default values are written. |
| Extension.Subscribe | extension.ts:51-54 | The three subscriptions of `enable` append consecutive ids to the session mode's, the settings' and the profile manager's ids, leave the monitor snapshot's ids alone, and keep one entry per object. |
| Extension.SubscribeFromEmpty | extension.ts:51-54 | From no subscriptions, a later `disconnectAll` releases exactly the three new handlers, in the order they were connected. |
| Extension.Attach | extension.ts:49-57 | With a profile manager in hand, `enable` subscribes three handlers, reads the settings and runs one pass. The pass writes the values of the profile `getActiveProfile` returns, and the manager changes only in its cache. When the cache is clear, the pass applies the first matching profile or the defaults. |
| Extension.EnableFresh | extension.ts:40-57 | Without a profile manager, a new one is created with an empty snapshot. Its profiles are those parsed from the settings (none when they do not parse), with the serial setting read. Its two handler ids come before the extension's three. The first pass applies the first match, which means the defaults unless some profile was saved for no monitors. |
| Extension.Enable | extension.ts:40-57 | An existing profile manager is kept, changed only in its cache; otherwise a new one is created first. In both cases three subscriptions are added and the settings are read. With an existing manager the pass writes the values of its active profile. A new manager has an empty snapshot, the serial setting read, and the parsed profiles (none when they do not parse), and the pass writes the values of the first match. |
| Extension.Disable | extension.ts:60-75 | Disconnects every subscription of the extension and then of the profile manager, drops the manager and writes the default font scale. The dock setting is left alone. |
| Extension.FirstEnableThenDisable | extension.ts:40-75 | A first `enable` followed by `disable` disconnects exactly the five handlers that were connected: the extension's three, then the profile manager's two. The font scale ends at the default. |
| Extension.SettingsChanged | profile.ts:75-139 | After a settings change, the monitor snapshot is kept, the serial setting and the profiles are re-read (the old profiles stay when the setting does not parse), and the extension's settings are re-read. The values written come from the first profile matching under the new settings, never from a stale cache. The dock and icon rules are the same as for one pass. |
| Extension.MonitorsChanged | monitors.ts:100-164 | An error reply empties the snapshot without notifying, so the stale cache and applied values stay. With a reply, the serial setting is re-read. With parsable profiles, the parsed list replaces the old one and the first match against the new snapshot is applied. With unparsable profiles, the old list stays, nothing is re-applied and the cache stays clear. |

## Left out

- D-Bus proxy creation, the idle callback that runs the first query, and `MonitorsConfig.disconnectAll`: these are host plumbing. The query reply is a parameter (`Reply`).
- `new MonitorsConfig()` on every `enable` call is left out. When a profile manager already exists, the new object is never used and never disconnected. The model keeps no such object.
- Extension.Enable: the settings object (`getSettings`) and the logger are not modelled.
- Floating-point values are modelled as `real`. JSON text is modelled as a structured document, so `JSON.parse` is only "parses or not" (`Persisted`).
- Text.Le compares Unicode code points. JavaScript's default `sort` compares UTF-16 code units. The two orders differ only for characters outside the Basic Multilingual Plane.
- The per-monitor key joins fields with `-` and is not injective: `a-b` + `c` and `a` + `b-c` give the same key. The model keeps this behaviour and proves nothing that needs injectivity.
- The `display-name` property is modelled as a plain string, not a GVariant.
- `logError(err)` on a failed display query is not modelled. The snapshot is still cleared, and nothing is emitted.
- A `profiles` document whose shape makes the code throw inside its `try` (for example a `profiles` member that is not an array) can only be expressed as `Unparsable`. `Persisted` models a document as either unparsable or a well-formed list.
- A saved profile without `fontScaleFactor` is not modelled. In the code `??` then falls back to the configured default; in the model every profile has a font scale.
- Of a logical monitor, only the primary flag and the list of monitor specs are used. The position (x, y), scale and transform are read and ignored, and the properties are never read.
- Profiles.MutationsRoundTrip: the round trip is not promised after `with-serials` changes while `profiles` does not parse. `#onUpdate` then keeps the old profiles, whose key sets were computed with the old setting, but installs the new setting, so a later re-read recomputes different key sets.
- `getMonitorsCount` and `getProfiles` are left out because they are plain getters.
- The preferences UI (`prefs.ts`) is left out because it is not part of the core.
- In the source, `#onUpdate(false)` skips re-reading the profiles. Every caller passes the emitting object (truthy) or nothing, so the model always re-reads.
- A clone-mode snapshot can leave several monitors with `isPrimary` set (Monitors.CloneScenario). The model keeps this.

Three behaviours of the code that a reader might not expect, which the model keeps:
- An error reply to the display query clears the snapshot but does not emit `updated`, because the code returns before the emit.
- `removeProfile` never fails: it uses `splice(idx, 1)`, which removes nothing for an index past the end and counts a negative index from the end.
- The identifier is a sorted list, not a set, so two monitors with the same key contribute that key twice.

## Findings

| source | as written | input that shows it | evidently intended | confidence | as-written member | corrected member |
|---|---|---|---|---|---|---|
| profile.ts:40-46 | `matchesCurrentMonitors` compares the current identifier's length with the size of the profile's key set, then checks membership. | A profile saved from two identical monitors with serials off has identifier `[k, k]` and key set `{k}`. Connecting the same two monitors fails the length test (2 ≠ 1), so the profile never applies. Conversely, `[a, a]` matches keys `{a, b}`. | A profile matches when the current keys form the same set as its saved keys. | not executed | Profiles.MatchesAsWrittenMissesOwnTopology | Profiles.MatchesOwnTopology |

The store and the controller follow the code and pick the active profile with the as-written test (`Profiles.MatchesAsWritten`). The corrected matcher `Profiles.Matches` is what the code evidently intends. When no current key repeats, the two pick the same profile (`Profiles.FirstMatchOnDistinct`).

=== FILE: extension.dfy ===
/** The extension's runtime controller: enable/disable, reading its settings,
    and applying the font scale and dock icon size chosen from the active
    profile or the defaults. Host settings stores, the shell's panel and the
    shell's session mode are records of values; "writing" a setting records the
    last value written. */
module Extension {
  import opened Wrappers
  import opened Shared
  import opened Monitors
  import ManagedConnects
  import Identity
  import Profiles

  /** What the extension's settings store returns; `None` where a read yields nothing. */
  datatype Settings = Settings(
    hideA11yIcon: Option<bool>,
    defaultScaleFactor: Option<real>,
    integrateDashToDock: Option<bool>,
    defaultDashToDockIconSize: Option<int>,
    withSerials: Option<bool>,
    profiles: Profiles.Persisted)

  /** `#extensionState`. */
  datatype ExtensionState = ExtensionState(
    hideA11yIcon: bool,
    defaultScaleFactor: real,
    integrateDashToDock: bool,
    defaultDashToDockIconSize: Option<int>)

  /** The last values written to the host; `None` where nothing was written. */
  datatype Outputs = Outputs(
    fontScaleFactor: Option<real>,        // text-scaling-factor of the desktop interface settings
    dashToDockIconSize: Option<int>,      // dash-max-icon-size of the dock's settings
    a11yIconHidden: Option<bool>)         // visibility of the accessibility status icon

  datatype Controller = Controller(
    manager: Option<Profiles.Store>,
    connections: ManagedConnects.Registry<Source>,
    state: ExtensionState,
    out: Outputs,
    nextHandlerId: nat)   // the id the host hands out for the next signal connection

  /** Between `enable` and `disable`: the profile manager (and the settings it reads) exist. */
  predicate Enabled(c: Controller) {
    c.manager.Some? && Profiles.Valid(c.manager.value)
  }

  /** `#readSettings`: a missing value falls back to a shown icon, the
      default scaling factor and no dock integration. */
  function ReadSettings(s: Settings): ExtensionState
  {
    ExtensionState(
      s.hideA11yIcon.GetOr(false),
      s.defaultScaleFactor.GetOr(DefaultScalingFactor),
      s.integrateDashToDock.GetOr(false),
      s.defaultDashToDockIconSize)
  }

  /** The font scale to apply: the active profile's, else the configured default. */
  function EffectiveFontScale(active: Option<Profiles.Profile>, e: ExtensionState): real
  {
    match active
    case Some(p) => p.fontScaleFactor
    case None => e.defaultScaleFactor
  }

  /** The dock icon size to apply: none without dock integration; otherwise the
      active profile's, falling back to the configured default. */
  function EffectiveIconSize(active: Option<Profiles.Profile>, e: ExtensionState): Option<int>
  {
    if !e.integrateDashToDock then None
    else if active.Some? && active.value.dashToDockIconSize.Some? then active.value.dashToDockIconSize
    else e.defaultDashToDockIconSize
  }

  /** `#setScalingFactor`: the font scale is always written, the dock icon
      size only when there is one. */
  function SetScalingFactor(out: Outputs, fontScale: real, iconSize: Option<int>): Outputs
  {
    Outputs(Some(fontScale), if iconSize.Some? then iconSize else out.dashToDockIconSize, out.a11yIconHidden)
  }

  /** `#updateA11yIcon`: hides the icon exactly when the setting says so. */
  function UpdateA11yIcon(out: Outputs, e: ExtensionState): Outputs
  {
    out.(a11yIconHidden := Some(e.hideA11yIcon))
  }

  /** `#applyFontScalingBasedOnDisplays`. */
  function ApplyFontScaling(c: Controller): Controller
    requires Enabled(c)
  {
    var l := Profiles.GetActiveProfile(c.manager.value);
    c.(manager := Some(l.store),
       out := SetScalingFactor(c.out, EffectiveFontScale(l.profile, c.state), EffectiveIconSize(l.profile, c.state)))
  }

  /** The values one pass writes, given the active profile (if any) and the
      settings as read: the profile's font scale, else the configured default,
      itself falling back to `DEFAULT_SCALING_FACTOR`; with dock integration
      on, the profile's icon size, else the configured one, written only when
      there is one; with integration off, the dock left as it was; and the
      accessibility icon hidden exactly when the setting says so. */
  predicate Applied(prev: Outputs, out: Outputs, active: Option<Profiles.Profile>, s: Settings) {
    var defaultScale := if s.defaultScaleFactor.Some? then s.defaultScaleFactor.value else DefaultScalingFactor;
    var integrate := s.integrateDashToDock == Some(true);
    var own := if active.Some? then active.value.dashToDockIconSize else None;
    && out.fontScaleFactor == Some(if active.Some? then active.value.fontScaleFactor else defaultScale)
    && (!integrate ==> out.dashToDockIconSize == prev.dashToDockIconSize)
    && (integrate && own.Some? ==> out.dashToDockIconSize == own)
    && (integrate && own.None? && s.defaultDashToDockIconSize.Some? ==>
          out.dashToDockIconSize == s.defaultDashToDockIconSize)
    && (integrate && own.None? && s.defaultDashToDockIconSize.None? ==>
          out.dashToDockIconSize == prev.dashToDockIconSize)
    && out.a11yIconHidden == Some(s.hideA11yIcon == Some(true))
  }

  /** `#onStateUpdate`: one state-application pass. */
  function OnStateUpdate(c: Controller, s: Settings): (r: Controller)
    requires Enabled(c)
    ensures Enabled(r)
    ensures r.connections == c.connections && r.nextHandlerId == c.nextHandlerId
    ensures r.state == ReadSettings(s)
    ensures r.manager.value == Profiles.GetActiveProfile(c.manager.value).store
    ensures Applied(c.out, r.out, Profiles.GetActiveProfile(c.manager.value).profile, s)
  {
    var c1 := ApplyFontScaling(c.(state := ReadSettings(s)));
    c1.(out := UpdateA11yIcon(c1.out, c1.state))
  }

  /** A second pass with nothing changed in between writes the same values. */
  lemma OnStateUpdateIdempotent(c: Controller, s: Settings)
    requires Enabled(c)
    ensures OnStateUpdate(OnStateUpdate(c, s), s) == OnStateUpdate(c, s)
  {
    Profiles.GetActiveProfileStable(c.manager.value);
  }

  /** The values written are those of the first profile that matches the
      current monitors, or the defaults when none matches, starting from the
      outputs `prev`. */
  ghost predicate AppliesFirstMatch(prev: Outputs, c: Controller, s: Settings)
    requires c.manager.Some?
  {
    var st := c.manager.value;
    var current := Profiles.CurrentIdentifier(st);
    && ((forall k :: 0 <= k < |st.profiles| ==> !Profiles.MatchesAsWritten(st.profiles[k], current)) ==>
          Applied(prev, c.out, None, s))
    && (forall k :: Profiles.IsFirstMatch(st.profiles, current, k) ==>
          Applied(prev, c.out, Some(st.profiles[k]), s))
  }

  /** A pass that starts from a cleared cache applies the first match. */
  lemma FreshPassAppliesFirstMatch(c: Controller, s: Settings)
    requires Enabled(c) && c.manager.value.cache.Unresolved?
    ensures AppliesFirstMatch(c.out, OnStateUpdate(c, s), s)
  {
    var st := c.manager.value;
    var l := Profiles.GetActiveProfile(st);
    if l.profile.Some? {
      var k :| Profiles.IsFirstMatch(st.profiles, Profiles.CurrentIdentifier(st), k)
        && l.profile == Some(st.profiles[k]) && l.store.cache == Profiles.Slot(k);
    }
  }

  /** No profile was saved for an empty set of monitors. */
  predicate NoEmptyProfile(st: Profiles.Store) {
    forall k :: 0 <= k < |st.profiles| ==> st.profiles[k].keys != {}
  }

  /** Right after the profile manager is created the monitor snapshot is
      empty, so only a profile saved for no monitors at all can match. */
  lemma EmptySnapshotPass(c: Controller, s: Settings)
    requires Enabled(c) && c.manager.value.cache.Unresolved?
    requires c.manager.value.monitorsConfig == Snapshot([], None)
    requires NoEmptyProfile(c.manager.value)
    ensures Applied(c.out, OnStateUpdate(c, s).out, None, s)
  {
    var st := c.manager.value;
    assert Profiles.CurrentIdentifier(st) == [];
  }

  /** The extension's three subscriptions, with consecutive handler ids from `n`.
      The session mode, the settings and the profile manager always exist and
      have `connect`, so each `connect` takes its success path, which is
      `ManagedConnects.Add`. */
  function Subscribe(reg: ManagedConnects.Registry<Source>, n: nat): (r: ManagedConnects.Registry<Source>)
    ensures ManagedConnects.IdsOf(r, SessionMode) == ManagedConnects.IdsOf(reg, SessionMode) + [n]
    ensures ManagedConnects.IdsOf(r, ExtensionSettings) == ManagedConnects.IdsOf(reg, ExtensionSettings) + [n + 1]
    ensures ManagedConnects.IdsOf(r, ProfileManager) == ManagedConnects.IdsOf(reg, ProfileManager) + [n + 2]
    ensures ManagedConnects.IdsOf(r, MonitorsConfig) == ManagedConnects.IdsOf(reg, MonitorsConfig)
    ensures ManagedConnects.Distinct(reg) ==> ManagedConnects.Distinct(r)
  {
    ManagedConnects.AddFacts(reg, SessionMode, n);
    ManagedConnects.AddFacts(ManagedConnects.Add(reg, SessionMode, n), ExtensionSettings, n + 1);
    ManagedConnects.AddFacts(ManagedConnects.Add(ManagedConnects.Add(reg, SessionMode, n), ExtensionSettings, n + 1),
      ProfileManager, n + 2);
    ManagedConnects.Add(ManagedConnects.Add(ManagedConnects.Add(reg, SessionMode, n), ExtensionSettings, n + 1),
      ProfileManager, n + 2)
  }

  /** The registry the three subscriptions build from an empty one. */
  function FirstSubscriptions(n: nat): ManagedConnects.Registry<Source> {
    [ManagedConnects.Entry(SessionMode, [n]), ManagedConnects.Entry(ExtensionSettings, [n + 1]),
     ManagedConnects.Entry(ProfileManager, [n + 2])]
  }

  lemma SubscribeEmpty(n: nat)
    ensures Subscribe([], n) == FirstSubscriptions(n)
  {
    var reg := FirstSubscriptions(n);
    assert ManagedConnects.Add([], SessionMode, n) == reg[..1];
    assert ManagedConnects.Add(reg[..1], ExtensionSettings, n + 1) == reg[..2];
    assert ManagedConnects.Add(reg[..2], ProfileManager, n + 2) == reg;
  }

  /** From an empty registry, `disable` will release exactly the three handlers
      subscribed, in subscription order. */
  lemma SubscribeFromEmpty(n: nat)
    ensures ManagedConnects.Pairs(Subscribe([], n)) ==
      [ManagedConnects.Call(SessionMode, n), ManagedConnects.Call(ExtensionSettings, n + 1),
       ManagedConnects.Call(ProfileManager, n + 2)]
  {
    var reg := FirstSubscriptions(n);
    SubscribeEmpty(n);
    assert ManagedConnects.EntryCalls(reg[0]) == [ManagedConnects.Call(SessionMode, n)];
    assert ManagedConnects.EntryCalls(reg[1]) == [ManagedConnects.Call(ExtensionSettings, n + 1)];
    assert ManagedConnects.EntryCalls(reg[2]) == [ManagedConnects.Call(ProfileManager, n + 2)];
    assert ManagedConnects.Pairs(reg[1..][1..][1..]) == [];
    assert ManagedConnects.Pairs(reg[1..][1..]) == [ManagedConnects.Call(ProfileManager, n + 2)];
    assert ManagedConnects.Pairs(reg[1..]) ==
      [ManagedConnects.Call(ExtensionSettings, n + 1), ManagedConnects.Call(ProfileManager, n + 2)];
  }

  /** `after` holds the subscriptions of `before` plus the extension's three,
      with consecutive handler ids from `n`. */
  predicate Subscribed(before: Controller, after: Controller, n: nat) {
    var b, a := before.connections, after.connections;
    && ManagedConnects.IdsOf(a, SessionMode) == ManagedConnects.IdsOf(b, SessionMode) + [n]
    && ManagedConnects.IdsOf(a, ExtensionSettings) == ManagedConnects.IdsOf(b, ExtensionSettings) + [n + 1]
    && ManagedConnects.IdsOf(a, ProfileManager) == ManagedConnects.IdsOf(b, ProfileManager) + [n + 2]
    && ManagedConnects.IdsOf(a, MonitorsConfig) == ManagedConnects.IdsOf(b, MonitorsConfig)
    && (ManagedConnects.Distinct(b) ==> ManagedConnects.Distinct(a))
    && after.nextHandlerId == n + 3
  }

  /** The part of `enable` after the profile manager exists: subscribe and run a pass. */
  method Attach(c: Controller, store: Profiles.Store, n: nat, s: Settings) returns (r: Controller)
    requires Profiles.Valid(store)
    ensures Enabled(r) && Subscribed(c, r, n)
    ensures r.manager.value == Profiles.GetActiveProfile(store).store
    ensures r.manager.value == store.(cache := r.manager.value.cache)
    ensures r.state == ReadSettings(s)
    ensures Applied(c.out, r.out, Profiles.GetActiveProfile(store).profile, s)
    ensures c.connections == [] ==>
      ManagedConnects.Pairs(r.connections) ==
        [ManagedConnects.Call(SessionMode, n), ManagedConnects.Call(ExtensionSettings, n + 1),
         ManagedConnects.Call(ProfileManager, n + 2)]
    ensures store.cache.Unresolved? ==> AppliesFirstMatch(c.out, r, s)
    ensures store.cache.Unresolved? && store.monitorsConfig == Snapshot([], None) && NoEmptyProfile(store) ==>
      Applied(c.out, r.out, None, s)
  {
    var c1 := Controller(Some(store), Subscribe(c.connections, n), c.state, c.out, n + 3);
    if c.connections == [] {
      SubscribeFromEmpty(n);
    }
    if store.cache.Unresolved? {
      FreshPassAppliesFirstMatch(c1, s);
      if store.monitorsConfig == Snapshot([], None) && NoEmptyProfile(store) {
        EmptySnapshotPass(c1, s);
      }
    }
    r := OnStateUpdate(c1, s);
  }

  /** `enable` when there is no profile manager yet: it is created with an
      empty monitor snapshot (the display query is deferred), then the
      extension subscribes and runs a pass. */
  method EnableFresh(c: Controller, s: Settings) returns (r: Controller)
    requires c.manager.None?
    ensures Enabled(r) && Subscribed(c, r, c.nextHandlerId + 2)
    ensures r.manager.value.withSerials == s.withSerials.GetOr(true)
    ensures s.profiles.Unparsable? ==> r.manager.value.profiles == []
    ensures Profiles.Parse(s.profiles, s.withSerials.GetOr(true)).Some? ==>
      Some(r.manager.value.profiles) == Profiles.Parse(s.profiles, s.withSerials.GetOr(true))
    ensures r.manager.value.monitorsConfig == Snapshot([], None)
    ensures r.manager.value.connections ==
      [ManagedConnects.Entry(ExtensionSettings, [c.nextHandlerId]), ManagedConnects.Entry(MonitorsConfig, [c.nextHandlerId + 1])]
    ensures ManagedConnects.Pairs(r.manager.value.connections) ==
      [ManagedConnects.Call(ExtensionSettings, c.nextHandlerId), ManagedConnects.Call(MonitorsConfig, c.nextHandlerId + 1)]
    ensures c.connections == [] ==>
      ManagedConnects.Pairs(r.connections) ==
        [ManagedConnects.Call(SessionMode, c.nextHandlerId + 2), ManagedConnects.Call(ExtensionSettings, c.nextHandlerId + 3),
         ManagedConnects.Call(ProfileManager, c.nextHandlerId + 4)]
    ensures r.state == ReadSettings(s)
    ensures AppliesFirstMatch(c.out, r, s)
    ensures NoEmptyProfile(r.manager.value) ==> Applied(c.out, r.out, None, s)
  {
    var created := Profiles.NewStore(s.withSerials, s.profiles, Snapshot([], None), c.nextHandlerId, c.nextHandlerId + 1);
    r := Attach(c, created.store, c.nextHandlerId + 2, s);
  }

  /** `enable`: keeps an existing profile manager or creates one, subscribes
      to the session mode, the settings and the profile manager, and runs one
      pass. */
  method Enable(c: Controller, s: Settings) returns (r: Controller)
    requires c.manager.Some? ==> Profiles.Valid(c.manager.value)
    ensures Enabled(r)
    ensures c.manager.Some? ==> Subscribed(c, r, c.nextHandlerId)
    ensures c.manager.None? ==> Subscribed(c, r, c.nextHandlerId + 2)
    ensures c.manager.Some? ==>
      r.manager.value == c.manager.value.(cache := r.manager.value.cache)
    ensures c.manager.Some? ==> Applied(c.out, r.out, Profiles.GetActiveProfile(c.manager.value).profile, s)
    ensures c.manager.None? ==> AppliesFirstMatch(c.out, r, s)
    ensures c.manager.None? ==> r.manager.value.monitorsConfig == Snapshot([], None)
    ensures c.manager.None? ==> r.manager.value.withSerials == s.withSerials.GetOr(true)
    ensures c.manager.None? && s.profiles.Unparsable? ==> r.manager.value.profiles == []
    ensures c.manager.None? && Profiles.Parse(s.profiles, s.withSerials.GetOr(true)).Some? ==>
      Some(r.manager.value.profiles) == Profiles.Parse(s.profiles, s.withSerials.GetOr(true))
    ensures r.state == ReadSettings(s)
  {
    if c.manager.Some? {
      r := Attach(c, c.manager.value, c.nextHandlerId, s);
    } else {
      r := EnableFresh(c, s);
    }
  }

  /** `disable`: releases the extension's and the profile manager's
      subscriptions, drops the profile manager and resets the font scale to
      the default, leaving the dock setting alone. */
  method Disable(c: Controller) returns (r: Controller, calls: seq<ManagedConnects.Call<Source>>)
    ensures r.manager.None? && r.connections == []
    ensures calls == ManagedConnects.Pairs(c.connections)
      + (if c.manager.Some? then ManagedConnects.Pairs(c.manager.value.connections) else [])
    ensures r.out == c.out.(fontScaleFactor := Some(DefaultScalingFactor))
    ensures r.state == c.state && r.nextHandlerId == c.nextHandlerId
  {
    var remaining;
    remaining, calls := ManagedConnects.DisconnectAll(c.connections);
    if c.manager.Some? {
      var released, more := Profiles.Release(c.manager.value);
      calls := calls + more;
    }
    r := c.(manager := None, connections := remaining,
            out := SetScalingFactor(c.out, DefaultScalingFactor, None));
  }

  /** Every handler the first `enable` connects, the extension's and the
      profile manager's, is disconnected by the following `disable`, and
      nothing else is. */
  method FirstEnableThenDisable(c: Controller, s: Settings) returns (r: Controller, calls: seq<ManagedConnects.Call<Source>>)
    requires c.manager.None? && c.connections == []
    ensures r.manager.None? && r.connections == []
    ensures calls ==
      [ManagedConnects.Call(SessionMode, c.nextHandlerId + 2), ManagedConnects.Call(ExtensionSettings, c.nextHandlerId + 3),
       ManagedConnects.Call(ProfileManager, c.nextHandlerId + 4),
       ManagedConnects.Call(ExtensionSettings, c.nextHandlerId), ManagedConnects.Call(MonitorsConfig, c.nextHandlerId + 1)]
    ensures r.out.fontScaleFactor == Some(DefaultScalingFactor)
  {
    var enabled := EnableFresh(c, s);
    r, calls := Disable(enabled);
  }

  /** A `changed` notification of the settings: the profile manager's handler
      runs first (it was connected first), clearing the cache and re-reading
      the profiles; its `updated` triggers a pass, then the extension's own
      handler runs another. */
  function SettingsChanged(c: Controller, s: Settings): (r: Controller)
    requires Enabled(c)
    ensures Enabled(r)
    ensures r.connections == c.connections
    ensures r.manager.value.withSerials == s.withSerials.GetOr(true)
    ensures s.profiles.Unparsable? ==> r.manager.value.profiles == c.manager.value.profiles
    ensures Profiles.Parse(s.profiles, s.withSerials.GetOr(true)).Some? ==>
      Some(r.manager.value.profiles) == Profiles.Parse(s.profiles, s.withSerials.GetOr(true))
    ensures r.manager.value.monitorsConfig == c.manager.value.monitorsConfig
    ensures r.state == ReadSettings(s)
    ensures AppliesFirstMatch(c.out, r, s)
  {
    var rf := Profiles.OnUpdate(c.manager.value, s.withSerials, s.profiles);
    var c1 := c.(manager := Some(rf.store));
    FreshPassAppliesFirstMatch(c1, s);
    OnStateUpdateIdempotent(c1, s);
    var c2 := if rf.emitted then OnStateUpdate(c1, s) else c1;
    OnStateUpdate(c2, s)
  }

  /** An `updated` notification of the monitor snapshot after a query reply.
      On an error the snapshot is emptied but nothing is notified, so the
      cache and the applied values stay. Otherwise the profile manager
      re-reads its settings and, when they parse, a pass applies the first
      match against the new snapshot. */
  function MonitorsChanged(c: Controller, reply: Reply, s: Settings): (r: Controller)
    requires Enabled(c)
    ensures Enabled(r)
    ensures r.connections == c.connections
    ensures r.manager.value.monitorsConfig == UpdateResourcesState(reply).snapshot
    ensures reply.Err? ==>
      r.out == c.out && r.manager.value.cache == c.manager.value.cache && r.manager.value.monitorsConfig.monitors == []
    ensures reply.Ok? ==> r.manager.value.withSerials == s.withSerials.GetOr(true)
    ensures reply.Ok? && s.profiles.Unparsable? ==>
      r.out == c.out && r.manager.value.cache.Unresolved? && r.manager.value.profiles == c.manager.value.profiles
    ensures reply.Ok? && s.profiles.Document? ==>
      Some(r.manager.value.profiles) == Profiles.Parse(s.profiles, s.withSerials.GetOr(true))
    ensures reply.Ok? && s.profiles.Document? ==> AppliesFirstMatch(c.out, r, s)
  {
    var u := UpdateResourcesState(reply);
    var st := c.manager.value.(monitorsConfig := u.snapshot);
    if !u.emitted then c.(manager := Some(st))
    else
      var rf := Profiles.OnUpdate(st, s.withSerials, s.profiles);
      var c1 := c.(manager := Some(rf.store));
      FreshPassAppliesFirstMatch(c1, s);
      if rf.emitted then OnStateUpdate(c1, s) else c1
  }
}

=== FILE: identity.dfy ===
/** The identifier of a monitor topology: one key per monitor, sorted, used to
    compare the current topology with the one a profile was saved from. */
module Identity {
  import Text
  import Sorting
  import opened Monitors

  /** `vendor-product[-serial]-active|inactive`. */
  function Key(m: Monitor, withSerials: bool): string {
    Text.Join([m.vendor, m.product] + (if withSerials then [m.serial] else [])
              + [if m.active then "active" else "inactive"], "-")
  }

  /** `f` applied to each element, in order (`Array.prototype.map`). */
  function MapSeq<A, B>(f: A -> B, s: seq<A>): seq<B> {
    seq(|s|, i requires 0 <= i < |s| => f(s[i]))
  }

  /** The keys of the monitors, in list order. */
  function Keys(ms: seq<Monitor>, withSerials: bool): (ks: seq<string>) {
    MapSeq((m: Monitor) => Key(m, withSerials), ms)
  }

  /** `getMonitorIdentifier`: the keys, sorted, duplicates kept. */
  function Identifier(ms: seq<Monitor>, withSerials: bool): (r: seq<string>)
    ensures Sorting.Sorted(r)
    ensures multiset(r) == multiset(Keys(ms, withSerials))
    ensures |r| == |ms|
  {
    var r := Sorting.Sort(Keys(ms, withSerials));
    assert |r| == |multiset(r)| == |Keys(ms, withSerials)|;
    r
  }

  /** Reordering the monitors reorders their keys. */
  lemma KeysPermutation(a: seq<Monitor>, b: seq<Monitor>, withSerials: bool)
    requires multiset(a) == multiset(b)
    ensures multiset(Keys(a, withSerials)) == multiset(Keys(b, withSerials))
  {
    MapPermutation((m: Monitor) => Key(m, withSerials), a, b);
  }

  lemma MapSeqAppend<A, B>(f: A -> B, a: seq<A>, b: seq<A>)
    ensures MapSeq(f, a + b) == MapSeq(f, a) + MapSeq(f, b)
  {
  }

  /** Taking the same element out of two permutations of each other leaves permutations. */
  lemma RemoveMatching<A>(a: seq<A>, b: seq<A>, j: nat)
    requires multiset(a) == multiset(b) && |a| > 0 && j < |b| && b[j] == a[0]
    ensures multiset(a[1..]) == multiset(b[..j] + b[j + 1..])
  {
    var x, rest, pre, post := a[0], a[1..], b[..j], b[j + 1..];
    assert a == [x] + rest;
    assert b == pre + [x] + post;
    assert multiset(a) == multiset{x} + multiset(rest);
    assert multiset(b) == multiset(pre) + multiset{x} + multiset(post);
    calc {
      multiset(rest);
      multiset(a) - multiset{x};
      multiset(b) - multiset{x};
      multiset(pre) + multiset(post);
      multiset(pre + post);
    }
  }

  lemma {:induction false} MapPermutation<A, B>(f: A -> B, a: seq<A>, b: seq<A>)
    requires multiset(a) == multiset(b)
    ensures multiset(MapSeq(f, a)) == multiset(MapSeq(f, b))
    decreases |a|
  {
    assert |a| == |multiset(a)| == |multiset(b)| == |b|;
    if |a| > 0 {
      var x := a[0];
      assert x in multiset(b);
      var j :| 0 <= j < |b| && b[j] == x;
      var pre, post := b[..j], b[j + 1..];
      var b' := pre + post;
      assert b == pre + ([x] + post);
      var rest := a[1..];
      assert a == [x] + rest;
      RemoveMatching(a, b, j);
      MapPermutation(f, rest, b');
      MapSeqAppend(f, [x], rest);
      MapSeqAppend(f, pre, [x] + post);
      MapSeqAppend(f, [x], post);
      MapSeqAppend(f, pre, post);
      var fx := MapSeq(f, [x]);
      var mp, mq := MapSeq(f, pre), MapSeq(f, post);
      assert multiset(MapSeq(f, b)) == multiset(mp) + multiset(fx) + multiset(mq);
      assert multiset(MapSeq(f, b')) == multiset(mp) + multiset(mq);
      assert multiset(MapSeq(f, a)) == multiset(fx) + multiset(MapSeq(f, rest));
    }
  }

  /** The identifier does not depend on the order of the monitors. */
  lemma IdentifierPermutationInvariant(a: seq<Monitor>, b: seq<Monitor>, withSerials: bool)
    requires multiset(a) == multiset(b)
    ensures Identifier(a, withSerials) == Identifier(b, withSerials)
  {
    KeysPermutation(a, b, withSerials);
    Sorting.SortedUnique(Identifier(a, withSerials), Identifier(b, withSerials));
  }

  /** Without serials, two topologies that agree on every monitor's vendor,
      product and active flag have the same identifier, whatever their serials,
      connectors and names. */
  lemma IdentifierIgnoresSerials(a: seq<Monitor>, b: seq<Monitor>)
    requires |a| == |b|
    requires forall i :: 0 <= i < |a| ==>
      a[i].vendor == b[i].vendor && a[i].product == b[i].product && a[i].active == b[i].active
    ensures Identifier(a, false) == Identifier(b, false)
  {
    assert Keys(a, false) == Keys(b, false);
  }
}

=== FILE: managed_connects.dfy ===
/** Bookkeeping of signal subscriptions: for each source, the handler ids
    obtained from it, so that all of them can be released in one call.
    The registry is an association list in insertion order, as the
    iteration order of a JavaScript `Map`. */
module ManagedConnects {
  import opened Wrappers

  datatype Entry<S> = Entry(source: S, signalIds: seq<nat>)

  type Registry<S> = seq<Entry<S>>

  /** What `connect` is handed: `null`, or an object that may or may not
      have a `connect` method. */
  datatype Target<S> = Null | Object(source: S, hasConnect: bool)

  /** One `object.disconnect(signalId)` call. */
  datatype Call<S> = Call(source: S, signalId: nat)

  datatype ConnectError = NoConnectMethod

  /** No source is recorded twice, as the keys of a `Map`. */
  predicate Distinct<S(==)>(reg: Registry<S>) {
    forall i, j :: 0 <= i < j < |reg| ==> reg[i].source != reg[j].source
  }

  /** Position of the entry for `s`, if any. */
  function IndexOf<S(==)>(reg: Registry<S>, s: S): (r: Option<nat>)
    ensures r.Some? ==> r.value < |reg| && reg[r.value].source == s
    ensures r.Some? ==> forall j :: 0 <= j < r.value ==> reg[j].source != s
    ensures r.None? ==> forall j :: 0 <= j < |reg| ==> reg[j].source != s
    decreases |reg|
  {
    if |reg| == 0 then None
    else if reg[0].source == s then Some(0)
    else
      match IndexOf(reg[1..], s)
      case None => None
      case Some(i) => Some(i + 1)
  }

  /** `IndexOf` is determined by where `s` first occurs. */
  lemma IndexOfIs<S>(reg: Registry<S>, s: S, k: nat)
    requires k < |reg| && reg[k].source == s
    requires forall j :: 0 <= j < k ==> reg[j].source != s
    ensures IndexOf(reg, s) == Some(k)
  {
  }

  /** The handler ids recorded for `s` (`get(object)?.signalIds ?? []`). */
  function IdsOf<S(==)>(reg: Registry<S>, s: S): seq<nat> {
    match IndexOf(reg, s)
    case None => []
    case Some(i) => reg[i].signalIds
  }

  /** Records `id` as the newest handler id of `s`. */
  function Add<S(==)>(reg: Registry<S>, s: S, id: nat): Registry<S> {
    match IndexOf(reg, s)
    case None => reg + [Entry(s, [id])]
    case Some(i) => reg[i := Entry(s, reg[i].signalIds + [id])]
  }

  /** `connect(object, signal, method)`: fails on `null` or on an object
      without a `connect` method; otherwise records the id the object's own
      `connect` returned (`id`). */
  function Connect<S(==,!new)>(reg: Registry<S>, t: Target<S>, id: nat): (r: Result<Registry<S>, ConnectError>)
    ensures r.Failure? <==> t.Null? || !t.hasConnect
    ensures r.Success? ==> IdsOf(r.value, t.source) == IdsOf(reg, t.source) + [id]
    ensures r.Success? ==> forall s :: s != t.source ==> IdsOf(r.value, s) == IdsOf(reg, s)
    ensures r.Success? && Distinct(reg) ==> Distinct(r.value)
  {
    if t.Null? || !t.hasConnect then Failure(NoConnectMethod)
    else
      AddFacts(reg, t.source, id);
      Success(Add(reg, t.source, id))
  }

  lemma AddFacts<S>(reg: Registry<S>, s: S, id: nat)
    ensures IdsOf(Add(reg, s, id), s) == IdsOf(reg, s) + [id]
    ensures forall s' :: s' != s ==> IdsOf(Add(reg, s, id), s') == IdsOf(reg, s')
    ensures Distinct(reg) ==> Distinct(Add(reg, s, id))
  {
    var r := Add(reg, s, id);
    match IndexOf(reg, s)
    case None =>
      IndexOfIs(r, s, |reg|);
      forall s' | s' != s
        ensures IdsOf(r, s') == IdsOf(reg, s')
      {
        match IndexOf(reg, s')
        case None =>
          assert IndexOf(r, s') == None;
        case Some(k) =>
          IndexOfIs(r, s', k);
      }
    case Some(i) =>
      IndexOfIs(r, s, i);
      forall s' | s' != s
        ensures IdsOf(r, s') == IdsOf(reg, s')
      {
        assert forall j :: 0 <= j < |r| ==> (r[j].source == s' <==> reg[j].source == s');
        assert IndexOf(r, s') == IndexOf(reg, s');
      }
  }

  /** The disconnect calls for one entry, in the order its ids were recorded. */
  function EntryCalls<S>(e: Entry<S>): seq<Call<S>> {
    seq(|e.signalIds|, k requires 0 <= k < |e.signalIds| => Call(e.source, e.signalIds[k]))
  }

  /** Every recorded (source, id) pair, entry by entry. */
  function Pairs<S>(reg: Registry<S>): seq<Call<S>>
    decreases |reg|
  {
    if |reg| == 0 then [] else EntryCalls(reg[0]) + Pairs(reg[1..])
  }

  /** `disconnectAll`: one `disconnect` call per recorded id, each entry deleted
      once its ids are released. */
  method DisconnectAll<S>(reg: Registry<S>) returns (remaining: Registry<S>, calls: seq<Call<S>>)
    ensures remaining == []
    ensures calls == Pairs(reg)
  {
    remaining := reg;
    calls := [];
    while |remaining| > 0
      invariant |remaining| <= |reg|
      invariant remaining == reg[|reg| - |remaining|..]
      invariant calls + Pairs(remaining) == Pairs(reg)
      decreases |remaining|
    {
      var e := remaining[0];
      ghost var before := calls;
      var k := 0;
      while k < |e.signalIds|
        invariant 0 <= k <= |e.signalIds|
        invariant calls == before + EntryCalls(e)[..k]
      {
        calls := calls + [Call(e.source, e.signalIds[k])];
        k := k + 1;
      }
      assert EntryCalls(e)[..k] == EntryCalls(e);
      remaining := remaining[1..];
    }
  }

  /** A successful `connect` adds exactly one pending disconnect call. */
  lemma {:induction false} AddPairs<S>(reg: Registry<S>, s: S, id: nat)
    ensures multiset(Pairs(Add(reg, s, id))) == multiset(Pairs(reg)) + multiset{Call(s, id)}
    decreases |reg|
  {
    if |reg| == 0 {
      assert Add(reg, s, id) == [Entry(s, [id])];
      assert EntryCalls(Entry(s, [id])) == [Call(s, id)];
    } else if reg[0].source == s {
      var r := Add(reg, s, id);
      assert r[0] == Entry(s, reg[0].signalIds + [id]);
      assert r[1..] == reg[1..];
      assert EntryCalls(r[0]) == EntryCalls(reg[0]) + [Call(s, id)];
    } else {
      var r := Add(reg, s, id);
      AddShift(reg, s, id);
      assert r[0] == reg[0];
      AddPairs(reg[1..], s, id);
    }
  }

  lemma AddShift<S>(reg: Registry<S>, s: S, id: nat)
    requires |reg| > 0 && reg[0].source != s
    ensures Add(reg, s, id) == [reg[0]] + Add(reg[1..], s, id)
  {
    match IndexOf(reg[1..], s)
    case None =>
    case Some(i) =>
      assert IndexOf(reg, s) == Some(i + 1);
  }

  /** With distinct sources, `disconnect(id)` is called on `s` exactly as many
      times as `id` was recorded for `s`. */
  lemma {:induction false} PairsCount<S>(reg: Registry<S>, s: S, id: nat)
    requires Distinct(reg)
    ensures multiset(Pairs(reg))[Call(s, id)] == multiset(IdsOf(reg, s))[id]
    decreases |reg|
  {
    if |reg| > 0 {
      var e := reg[0];
      assert Distinct(reg[1..]) by {
        forall i, j | 0 <= i < j < |reg| - 1
          ensures reg[1..][i].source != reg[1..][j].source
        {
          assert reg[1..][i] == reg[i + 1] && reg[1..][j] == reg[j + 1];
        }
      }
      PairsCount(reg[1..], s, id);
      EntryCallsCount(e, s, id);
      if e.source == s {
        assert IdsOf(reg, s) == e.signalIds;
        assert forall j :: 0 <= j < |reg[1..]| ==> reg[1..][j].source != s by {
          forall j | 0 <= j < |reg[1..]|
            ensures reg[1..][j].source != s
          {
            assert reg[1..][j] == reg[j + 1];
          }
        }
        assert IdsOf(reg[1..], s) == [];
      } else {
        match IndexOf(reg[1..], s)
        case None =>
          assert IndexOf(reg, s) == None;
        case Some(i) =>
          assert IndexOf(reg, s) == Some(i + 1);
      }
    }
  }

  lemma EntryCallsCount<S>(e: Entry<S>, s: S, id: nat)
    ensures multiset(EntryCalls(e))[Call(s, id)] == if e.source == s then multiset(e.signalIds)[id] else 0
    decreases |e.signalIds|
  {
    if |e.signalIds| > 0 {
      var tail := Entry(e.source, e.signalIds[1..]);
      EntryCallsCount(tail, s, id);
      assert EntryCalls(e) == [Call(e.source, e.signalIds[0])] + EntryCalls(tail);
      assert e.signalIds == [e.signalIds[0]] + e.signalIds[1..];
    }
  }
}

=== FILE: monitors.dfy ===
/** The monitor snapshot: the list of physical monitors built from one reply
    of the display-configuration service, with the active and primary
    monitors marked and cloned outputs collapsed to the primary one. */
module Monitors {
  import opened Wrappers

  /** The four strings that name a physical monitor: connector, vendor, product, serial. */
  datatype Spec = Spec(connector: string, vendor: string, product: string, serial: string)

  /** One physical monitor of the current snapshot. */
  datatype Monitor = Monitor(
    index: nat,
    active: bool,
    connector: string,
    vendor: string,
    product: string,
    serial: string,
    displayName: string,
    isPrimary: bool)
  {
    function Specs(): Spec {
      Spec(connector, vendor, product, serial)
    }

    /** The monitor with both flags cleared: what the snapshot copies from the reply. */
    function Bare(): Monitor {
      this.(active := false, isPrimary := false)
    }
  }

  /** A physical monitor of the reply: its spec tuple and its display name. */
  datatype ResourceMonitor = ResourceMonitor(specs: Spec, displayName: string)

  /** A logical monitor of the reply: its primary flag and the physical monitors it covers. */
  datatype LogicalMonitor = LogicalMonitor(isPrimary: bool, specs: seq<Spec>)

  datatype Resource = Resource(monitors: seq<ResourceMonitor>, logicalMonitors: seq<LogicalMonitor>)

  /** The reply to the current-state query, or the error it failed with. */
  datatype Reply = Ok(resource: Resource) | Err(message: string)

  /** The monitor list and the primary monitor, recorded as its position in the list. */
  datatype Snapshot = Snapshot(monitors: seq<Monitor>, primary: Option<nat>)

  /** A rebuilt snapshot and whether `updated` was emitted. */
  datatype Update = Update(snapshot: Snapshot, emitted: bool)

  predicate PrimaryInList(st: Snapshot) {
    st.primary.Some? ==> st.primary.value < |st.monitors|
  }

  /** One monitor per physical entry, in reply order, both flags cleared. */
  function Fresh(rms: seq<ResourceMonitor>): seq<Monitor> {
    seq(|rms|, i requires 0 <= i < |rms| =>
      Monitor(i, false, rms[i].specs.connector, rms[i].specs.vendor, rms[i].specs.product,
              rms[i].specs.serial, rms[i].displayName, false))
  }

  /** The first monitor at or after `from` whose spec tuple equals `spec`,
      as `Array.prototype.find` picks it. */
  function FindFrom(ms: seq<Monitor>, spec: Spec, from: nat): (r: Option<nat>)
    ensures r.Some? ==> from <= r.value < |ms| && ms[r.value].Specs() == spec
    ensures r.Some? ==> forall j :: from <= j < r.value ==> ms[j].Specs() != spec
    ensures r.None? ==> forall j :: from <= j < |ms| ==> ms[j].Specs() != spec
    decreases |ms| - from
  {
    if from >= |ms| then None
    else if ms[from].Specs() == spec then Some(from)
    else FindFrom(ms, spec, from + 1)
  }

  function Find(ms: seq<Monitor>, spec: Spec): Option<nat> {
    FindFrom(ms, spec, 0)
  }

  /** One reference from a logical monitor to a physical one. */
  datatype Ref = Ref(isPrimary: bool, spec: Spec)

  /** The references of all logical monitors, in the order the nested loops visit them. */
  function Refs(lms: seq<LogicalMonitor>): seq<Ref>
    decreases |lms|
  {
    if |lms| == 0 then []
    else
      seq(|lms[0].specs|, k requires 0 <= k < |lms[0].specs| => Ref(lms[0].isPrimary, lms[0].specs[k]))
      + Refs(lms[1..])
  }

  /** Handles one reference: an unknown spec is skipped; otherwise the monitor
      becomes active, takes the logical monitor's primary flag, and becomes the
      recorded primary when that flag is set. */
  function Step(st: Snapshot, r: Ref): Snapshot {
    match Find(st.monitors, r.spec)
    case None => st
    case Some(i) =>
      Snapshot(st.monitors[i := st.monitors[i].(active := true, isPrimary := r.isPrimary)],
               if r.isPrimary then Some(i) else st.primary)
  }

  function Mark(st: Snapshot, refs: seq<Ref>): Snapshot
    decreases |refs|
  {
    if |refs| == 0 then st else Mark(Step(st, refs[0]), refs[1..])
  }

  function CountActive(ms: seq<Monitor>): nat
    decreases |ms|
  {
    if |ms| == 0 then 0 else (if ms[0].active then 1 else 0) + CountActive(ms[1..])
  }

  /** Clone mode (more than one active monitor, exactly one logical monitor):
      every monitor is deactivated, then the recorded primary reactivated. */
  function ResolveClone(st: Snapshot, logicalCount: nat): Snapshot
    requires PrimaryInList(st)
  {
    if CountActive(st.monitors) > 1 && logicalCount == 1 then
      var ms := seq(|st.monitors|, i requires 0 <= i < |st.monitors| => st.monitors[i].(active := false));
      if st.primary.Some? then
        Snapshot(ms[st.primary.value := ms[st.primary.value].(active := true)], st.primary)
      else
        Snapshot(ms, st.primary)
    else st
  }

  // Properties of the reply that the snapshot is specified against.

  /** Position `i` holds the first physical entry whose spec tuple is `spec`. */
  predicate IsFirstWith(rms: seq<ResourceMonitor>, spec: Spec, i: int) {
    && 0 <= i < |rms|
    && rms[i].specs == spec
    && forall j :: 0 <= j < i ==> rms[j].specs != spec
  }

  /** Some logical monitor references physical entry `i`. */
  ghost predicate Referenced(res: Resource, i: int) {
    exists l, k :: 0 <= l < |res.logicalMonitors| && 0 <= k < |res.logicalMonitors[l].specs|
      && IsFirstWith(res.monitors, res.logicalMonitors[l].specs[k], i)
  }

  /** Some logical monitor flagged primary references physical entry `i`. */
  ghost predicate PrimaryReferenced(res: Resource, i: int) {
    exists l, k :: 0 <= l < |res.logicalMonitors| && 0 <= k < |res.logicalMonitors[l].specs|
      && res.logicalMonitors[l].isPrimary
      && IsFirstWith(res.monitors, res.logicalMonitors[l].specs[k], i)
  }

  /** One logical monitor covering more than one physical monitor: mirrored outputs. */
  ghost predicate CloneMode(res: Resource) {
    && |res.logicalMonitors| == 1
    && exists i, j :: 0 <= i < j < |res.monitors| && Referenced(res, i) && Referenced(res, j)
  }

  /** Some physical entry has the spec tuple `spec`, so a reference to it finds a monitor. */
  predicate Known(rms: seq<ResourceMonitor>, spec: Spec) {
    exists j :: 0 <= j < |rms| && rms[j].specs == spec
  }

  /** The position in `refs` of the last reference that finds physical entry `i`. */
  function LastRefTo(rms: seq<ResourceMonitor>, refs: seq<Ref>, i: int): (p: Option<nat>)
    ensures p.Some? ==> p.value < |refs| && IsFirstWith(rms, refs[p.value].spec, i)
    ensures p.Some? ==> forall q :: p.value < q < |refs| ==> !IsFirstWith(rms, refs[q].spec, i)
    ensures p.None? ==> forall q :: 0 <= q < |refs| ==> !IsFirstWith(rms, refs[q].spec, i)
    decreases |refs|
  {
    if |refs| == 0 then None
    else if IsFirstWith(rms, refs[|refs| - 1].spec, i) then Some(|refs| - 1)
    else LastRefTo(rms, refs[..|refs| - 1], i)
  }

  /** The position in `refs` of the last reference from a primary logical
      monitor that finds some monitor. */
  function LastPrimaryRef(rms: seq<ResourceMonitor>, refs: seq<Ref>): (p: Option<nat>)
    ensures p.Some? ==> p.value < |refs| && refs[p.value].isPrimary && Known(rms, refs[p.value].spec)
    ensures p.Some? ==> forall q :: p.value < q < |refs| && refs[q].isPrimary ==> !Known(rms, refs[q].spec)
    ensures p.None? ==> forall q :: 0 <= q < |refs| && refs[q].isPrimary ==> !Known(rms, refs[q].spec)
    decreases |refs|
  {
    if |refs| == 0 then None
    else if refs[|refs| - 1].isPrimary && Known(rms, refs[|refs| - 1].spec) then Some(|refs| - 1)
    else LastPrimaryRef(rms, refs[..|refs| - 1])
  }

  /** `#updateResourcesState`: on an error the snapshot is cleared and nothing is
      emitted; otherwise the snapshot is rebuilt from the reply and `updated` is emitted. */
  function UpdateResourcesState(reply: Reply): (u: Update)
    ensures reply.Err? ==> u == Update(Snapshot([], None), false)
    ensures reply.Ok? ==> u.emitted
    ensures reply.Ok? ==> |u.snapshot.monitors| == |reply.resource.monitors|
    ensures reply.Ok? ==> forall i :: 0 <= i < |u.snapshot.monitors| ==>
      && u.snapshot.monitors[i].index == i
      && u.snapshot.monitors[i].Specs() == reply.resource.monitors[i].specs
      && u.snapshot.monitors[i].displayName == reply.resource.monitors[i].displayName
    ensures reply.Ok? && u.snapshot.primary.Some? ==>
      u.snapshot.primary.value < |u.snapshot.monitors| && PrimaryReferenced(reply.resource, u.snapshot.primary.value)
    ensures reply.Ok? && (exists i :: PrimaryReferenced(reply.resource, i)) ==> u.snapshot.primary.Some?
    ensures reply.Ok? && !CloneMode(reply.resource) ==> forall i :: 0 <= i < |u.snapshot.monitors| ==>
      (u.snapshot.monitors[i].active <==> Referenced(reply.resource, i))
    ensures reply.Ok? && CloneMode(reply.resource) ==> forall i :: 0 <= i < |u.snapshot.monitors| ==>
      (u.snapshot.monitors[i].active <==> u.snapshot.primary == Some(i))
    ensures reply.Ok? ==> var rms, refs := reply.resource.monitors, Refs(reply.resource.logicalMonitors);
      forall i :: 0 <= i < |u.snapshot.monitors| ==>
        (u.snapshot.monitors[i].isPrimary <==>
           LastRefTo(rms, refs, i).Some? && refs[LastRefTo(rms, refs, i).value].isPrimary)
    ensures reply.Ok? ==> var rms, refs := reply.resource.monitors, Refs(reply.resource.logicalMonitors);
      && (LastPrimaryRef(rms, refs).None? ==> u.snapshot.primary.None?)
      && (LastPrimaryRef(rms, refs).Some? ==>
            u.snapshot.primary.Some? && IsFirstWith(rms, refs[LastPrimaryRef(rms, refs).value].spec, u.snapshot.primary.value))
  {
    match reply
    case Err(_) => Update(Snapshot([], None), false)
    case Ok(res) =>
      var st := Marked(res);
      MarkedFacts(res);
      MarkedFlags(res);
      ResolveCloneFacts(st, |res.logicalMonitors|);
      CloneCondition(res);
      Update(ResolveClone(st, |res.logicalMonitors|), true)
  }

  // Proofs.

  predicate SameBare(a: seq<Monitor>, b: seq<Monitor>) {
    |a| == |b| && forall i :: 0 <= i < |a| ==> a[i].Bare() == b[i].Bare()
  }

  lemma {:induction false} FindFromSameBare(a: seq<Monitor>, b: seq<Monitor>, spec: Spec, from: nat)
    requires SameBare(a, b)
    ensures FindFrom(a, spec, from) == FindFrom(b, spec, from)
    decreases |a| - from
  {
    if from < |a| {
      assert a[from].Bare() == b[from].Bare();
      assert a[from].Specs() == b[from].Specs();
      FindFromSameBare(a, b, spec, from + 1);
    }
  }

  /** `Find` looks only at spec tuples, which marking never changes. */
  lemma FindSameBare(a: seq<Monitor>, b: seq<Monitor>, spec: Spec)
    requires SameBare(a, b)
    ensures Find(a, spec) == Find(b, spec)
  {
    FindFromSameBare(a, b, spec, 0);
  }

  /** `FindFrom` returns the first position holding `spec`. */
  lemma {:induction false} FindFromIs(ms: seq<Monitor>, spec: Spec, from: nat, i: nat)
    requires from <= i < |ms| && ms[i].Specs() == spec
    requires forall j :: from <= j < i ==> ms[j].Specs() != spec
    ensures FindFrom(ms, spec, from) == Some(i)
    decreases i - from
  {
    if from < i {
      FindFromIs(ms, spec, from + 1, i);
    }
  }

  ghost predicate Hit(ms: seq<Monitor>, refs: seq<Ref>, i: int) {
    exists r :: r in refs && Find(ms, r.spec) == Some(i)
  }

  ghost predicate PrimaryHit(ms: seq<Monitor>, refs: seq<Ref>, i: int) {
    exists r :: r in refs && r.isPrimary && Find(ms, r.spec) == Some(i)
  }

  lemma StepFacts(st: Snapshot, r: Ref)
    requires PrimaryInList(st)
    ensures SameBare(Step(st, r).monitors, st.monitors)
    ensures PrimaryInList(Step(st, r))
    ensures forall i :: 0 <= i < |st.monitors| ==>
      (Step(st, r).monitors[i].active <==> st.monitors[i].active || Find(st.monitors, r.spec) == Some(i))
    ensures Step(st, r).primary != st.primary ==>
      r.isPrimary && Find(st.monitors, r.spec) == Step(st, r).primary && Step(st, r).primary.Some?
    ensures r.isPrimary && Find(st.monitors, r.spec).Some? ==> Step(st, r).primary == Find(st.monitors, r.spec)
  {
  }

  lemma {:induction false} MarkFacts(st: Snapshot, refs: seq<Ref>)
    requires PrimaryInList(st)
    ensures SameBare(Mark(st, refs).monitors, st.monitors)
    ensures PrimaryInList(Mark(st, refs))
    ensures forall i :: 0 <= i < |st.monitors| ==>
      (Mark(st, refs).monitors[i].active <==> st.monitors[i].active || Hit(st.monitors, refs, i))
    ensures Mark(st, refs).primary != st.primary ==>
      Mark(st, refs).primary.Some? && PrimaryHit(st.monitors, refs, Mark(st, refs).primary.value)
    ensures (exists r :: r in refs && r.isPrimary && Find(st.monitors, r.spec).Some?) ==>
      Mark(st, refs).primary.Some?
    decreases |refs|
  {
    if |refs| > 0 {
      var r0 := refs[0];
      var st1 := Step(st, r0);
      var m := Mark(st, refs);
      assert m == Mark(st1, refs[1..]);
      StepFacts(st, r0);
      MarkFacts(st1, refs[1..]);
      forall spec
        ensures Find(st1.monitors, spec) == Find(st.monitors, spec)
      {
        FindSameBare(st1.monitors, st.monitors, spec);
      }
      assert refs == [r0] + refs[1..];
      forall i | 0 <= i < |st.monitors|
        ensures m.monitors[i].active <==> st.monitors[i].active || Hit(st.monitors, refs, i)
      {
        if Hit(st.monitors, refs, i) {
          var r :| r in refs && Find(st.monitors, r.spec) == Some(i);
          if r != r0 {
            assert r in refs[1..];
            assert Hit(st1.monitors, refs[1..], i);
          }
        }
        if Hit(st1.monitors, refs[1..], i) {
          var r :| r in refs[1..] && Find(st1.monitors, r.spec) == Some(i);
          assert r in refs;
        }
      }
      if m.primary != st.primary {
        if m.primary != st1.primary {
          var r :| r in refs[1..] && r.isPrimary && Find(st1.monitors, r.spec) == Some(m.primary.value);
          assert r in refs;
        } else {
          assert r0 in refs;
        }
      }
      if exists r :: r in refs && r.isPrimary && Find(st.monitors, r.spec).Some? {
        var r :| r in refs && r.isPrimary && Find(st.monitors, r.spec).Some?;
        if r != r0 {
          assert r in refs[1..] && Find(st1.monitors, r.spec).Some?;
        } else if m.primary == st1.primary {
          assert st1.primary.Some?;
        }
      }
    }
  }

  lemma CountActiveTwo(ms: seq<Monitor>)
    ensures CountActive(ms) > 1 <==> exists i, j :: 0 <= i < j < |ms| && ms[i].active && ms[j].active
  {
    if CountActive(ms) > 1 {
      var i, j := ActivePair(ms);
    }
    if exists i, j :: 0 <= i < j < |ms| && ms[i].active && ms[j].active {
      var i, j :| 0 <= i < j < |ms| && ms[i].active && ms[j].active;
      PairCountsTwo(ms, i, j);
    }
  }

  /** Two active monitors are found in any list that counts more than one. */
  lemma {:induction false} ActivePair(ms: seq<Monitor>) returns (i: nat, j: nat)
    requires CountActive(ms) > 1
    ensures i < j < |ms| && ms[i].active && ms[j].active
    decreases |ms|
  {
    var t := ms[1..];
    if ms[0].active {
      CountActivePositive(t);
      var k :| 0 <= k < |t| && t[k].active;
      i, j := 0, k + 1;
    } else {
      var a, b := ActivePair(t);
      i, j := a + 1, b + 1;
    }
  }

  /** Any two active monitors make the count exceed one. */
  lemma {:induction false} PairCountsTwo(ms: seq<Monitor>, i: nat, j: nat)
    requires i < j < |ms| && ms[i].active && ms[j].active
    ensures CountActive(ms) > 1
    decreases |ms|
  {
    var t := ms[1..];
    assert t[j - 1].active;
    if i == 0 {
      CountActivePositive(t);
    } else {
      PairCountsTwo(t, i - 1, j - 1);
    }
  }

  lemma {:induction false} CountActivePositive(ms: seq<Monitor>)
    ensures CountActive(ms) > 0 <==> exists j :: 0 <= j < |ms| && ms[j].active
    decreases |ms|
  {
    if |ms| > 0 {
      CountActivePositive(ms[1..]);
      if exists j :: 0 <= j < |ms| && ms[j].active {
        var j :| 0 <= j < |ms| && ms[j].active;
        if j > 0 {
          assert ms[1..][j - 1].active;
        }
      }
      if exists j :: 0 <= j < |ms[1..]| && ms[1..][j].active {
        var j :| 0 <= j < |ms[1..]| && ms[1..][j].active;
        assert ms[j + 1].active;
      }
    }
  }

  lemma RefsMembership(lms: seq<LogicalMonitor>, r: Ref)
    ensures r in Refs(lms) <==>
      exists l, k :: 0 <= l < |lms| && 0 <= k < |lms[l].specs| && r == Ref(lms[l].isPrimary, lms[l].specs[k])
    decreases |lms|
  {
    if |lms| > 0 {
      RefsMembership(lms[1..], r);
      var head := seq(|lms[0].specs|, k requires 0 <= k < |lms[0].specs| => Ref(lms[0].isPrimary, lms[0].specs[k]));
      if r in head {
        var k :| 0 <= k < |head| && head[k] == r;
        assert r == Ref(lms[0].isPrimary, lms[0].specs[k]);
      }
      if r in Refs(lms[1..]) {
        var l, k :| 0 <= l < |lms[1..]| && 0 <= k < |lms[1..][l].specs| && r == Ref(lms[1..][l].isPrimary, lms[1..][l].specs[k]);
        assert lms[1..][l] == lms[l + 1];
      }
      if exists l, k :: 0 <= l < |lms| && 0 <= k < |lms[l].specs| && r == Ref(lms[l].isPrimary, lms[l].specs[k]) {
        var l, k :| 0 <= l < |lms| && 0 <= k < |lms[l].specs| && r == Ref(lms[l].isPrimary, lms[l].specs[k]);
        if l == 0 {
          assert head[k] == r;
        } else {
          assert lms[1..][l - 1] == lms[l];
        }
      }
    }
  }

  lemma FindFresh(rms: seq<ResourceMonitor>, spec: Spec, i: int)
    ensures Find(Fresh(rms), spec) == Some(i) <==> IsFirstWith(rms, spec, i)
  {
    var ms := Fresh(rms);
    assert forall j :: 0 <= j < |ms| ==> ms[j].Specs() == rms[j].specs;
    if IsFirstWith(rms, spec, i) {
      FindFromIs(ms, spec, 0, i);
    }
  }

  lemma HitReferenced(res: Resource, i: int)
    ensures Hit(Fresh(res.monitors), Refs(res.logicalMonitors), i) <==> Referenced(res, i)
    ensures PrimaryHit(Fresh(res.monitors), Refs(res.logicalMonitors), i) <==> PrimaryReferenced(res, i)
  {
    var ms := Fresh(res.monitors);
    var lms := res.logicalMonitors;
    var refs := Refs(lms);
    if Hit(ms, refs, i) {
      var r :| r in refs && Find(ms, r.spec) == Some(i);
      RefsMembership(lms, r);
      FindFresh(res.monitors, r.spec, i);
    }
    if Referenced(res, i) {
      var l, k :| 0 <= l < |lms| && 0 <= k < |lms[l].specs| && IsFirstWith(res.monitors, lms[l].specs[k], i);
      var r := Ref(lms[l].isPrimary, lms[l].specs[k]);
      RefsMembership(lms, r);
      FindFresh(res.monitors, r.spec, i);
    }
    if PrimaryHit(ms, refs, i) {
      var r :| r in refs && r.isPrimary && Find(ms, r.spec) == Some(i);
      RefsMembership(lms, r);
      FindFresh(res.monitors, r.spec, i);
    }
    if PrimaryReferenced(res, i) {
      var l, k :| 0 <= l < |lms| && 0 <= k < |lms[l].specs| && lms[l].isPrimary
        && IsFirstWith(res.monitors, lms[l].specs[k], i);
      var r := Ref(lms[l].isPrimary, lms[l].specs[k]);
      RefsMembership(lms, r);
      FindFresh(res.monitors, r.spec, i);
    }
  }

  /** The snapshot after every reference has been handled, before clone resolution. */
  function Marked(res: Resource): (st: Snapshot)
    ensures PrimaryInList(st)
  {
    MarkFacts(Snapshot(Fresh(res.monitors), None), Refs(res.logicalMonitors));
    Mark(Snapshot(Fresh(res.monitors), None), Refs(res.logicalMonitors))
  }

  lemma MarkedFacts(res: Resource)
    ensures SameBare(Marked(res).monitors, Fresh(res.monitors))
    ensures forall i :: 0 <= i < |Marked(res).monitors| ==> (Marked(res).monitors[i].active <==> Referenced(res, i))
    ensures Marked(res).primary.Some? ==> PrimaryReferenced(res, Marked(res).primary.value)
    ensures (exists i :: PrimaryReferenced(res, i)) ==> Marked(res).primary.Some?
  {
    var st0 := Snapshot(Fresh(res.monitors), None);
    var refs := Refs(res.logicalMonitors);
    MarkFacts(st0, refs);
    var st := Marked(res);
    forall i | 0 <= i < |st.monitors|
      ensures st.monitors[i].active <==> Referenced(res, i)
    {
      HitReferenced(res, i);
    }
    if st.primary.Some? {
      HitReferenced(res, st.primary.value);
    }
    if exists i :: PrimaryReferenced(res, i) {
      var i :| PrimaryReferenced(res, i);
      HitReferenced(res, i);
    }
  }

  /** Marking the references in two parts: the last one is handled after all the others. */
  lemma {:induction false} MarkSnoc(st: Snapshot, refs: seq<Ref>, r: Ref)
    ensures Mark(st, refs + [r]) == Step(Mark(st, refs), r)
    decreases |refs|
  {
    if |refs| > 0 {
      assert (refs + [r])[1..] == refs[1..] + [r];
      MarkSnoc(Step(st, refs[0]), refs[1..], r);
    } else {
      assert ([] + [r])[1..] == [];
    }
  }

  /** A reference finds a monitor of a fresh list exactly when its spec is in the reply. */
  lemma FindFreshKnown(rms: seq<ResourceMonitor>, spec: Spec)
    ensures Find(Fresh(rms), spec).Some? <==> Known(rms, spec)
  {
    var ms := Fresh(rms);
    assert forall j :: 0 <= j < |ms| ==> ms[j].Specs() == rms[j].specs;
  }

  /** One reference, against a list built from the reply: the monitor it
      finds takes its primary flag, and becomes the recorded primary when the
      flag is set. */
  lemma StepFresh(rms: seq<ResourceMonitor>, m: Snapshot, r: Ref)
    requires PrimaryInList(m) && SameBare(m.monitors, Fresh(rms))
    ensures SameBare(Step(m, r).monitors, Fresh(rms)) && PrimaryInList(Step(m, r))
    ensures forall i :: 0 <= i < |m.monitors| ==>
      Step(m, r).monitors[i].isPrimary == (if IsFirstWith(rms, r.spec, i) then r.isPrimary else m.monitors[i].isPrimary)
    ensures r.isPrimary && Known(rms, r.spec) ==>
      Step(m, r).primary.Some? && IsFirstWith(rms, r.spec, Step(m, r).primary.value)
    ensures !(r.isPrimary && Known(rms, r.spec)) ==> Step(m, r).primary == m.primary
  {
    StepFacts(m, r);
    FindSameBare(m.monitors, Fresh(rms), r.spec);
    FindFreshKnown(rms, r.spec);
    forall i | 0 <= i < |m.monitors|
      ensures Find(m.monitors, r.spec) == Some(i) <==> IsFirstWith(rms, r.spec, i)
    {
      FindFresh(rms, r.spec, i);
    }
  }

  /** Each monitor's primary flag is the flag of the last reference that finds
      it, and the recorded primary is the monitor found by the last primary
      reference that finds one. */
  lemma {:induction false} MarkLast(rms: seq<ResourceMonitor>, st: Snapshot, refs: seq<Ref>)
    requires PrimaryInList(st) && SameBare(st.monitors, Fresh(rms))
    ensures SameBare(Mark(st, refs).monitors, Fresh(rms)) && PrimaryInList(Mark(st, refs))
    ensures forall i :: 0 <= i < |st.monitors| ==>
      Mark(st, refs).monitors[i].isPrimary ==
        (if LastRefTo(rms, refs, i).Some? then refs[LastRefTo(rms, refs, i).value].isPrimary
         else st.monitors[i].isPrimary)
    ensures LastPrimaryRef(rms, refs).None? ==> Mark(st, refs).primary == st.primary
    ensures LastPrimaryRef(rms, refs).Some? ==>
      Mark(st, refs).primary.Some?
      && IsFirstWith(rms, refs[LastPrimaryRef(rms, refs).value].spec, Mark(st, refs).primary.value)
    decreases |refs|
  {
    if |refs| > 0 {
      var init, last := refs[..|refs| - 1], refs[|refs| - 1];
      assert refs == init + [last];
      MarkSnoc(st, init, last);
      MarkLast(rms, st, init);
      StepFresh(rms, Mark(st, init), last);
    }
  }

  lemma MarkedFlags(res: Resource)
    ensures var rms, refs := res.monitors, Refs(res.logicalMonitors);
      forall i :: 0 <= i < |Marked(res).monitors| ==>
        (Marked(res).monitors[i].isPrimary <==>
           LastRefTo(rms, refs, i).Some? && refs[LastRefTo(rms, refs, i).value].isPrimary)
    ensures var rms, refs := res.monitors, Refs(res.logicalMonitors);
      && (LastPrimaryRef(rms, refs).None? ==> Marked(res).primary.None?)
      && (LastPrimaryRef(rms, refs).Some? ==>
            Marked(res).primary.Some? && IsFirstWith(rms, refs[LastPrimaryRef(rms, refs).value].spec, Marked(res).primary.value))
  {
    var st0 := Snapshot(Fresh(res.monitors), None);
    MarkLast(res.monitors, st0, Refs(res.logicalMonitors));
    MarkFacts(st0, Refs(res.logicalMonitors));
  }

  /** Two active monitors exactly when two referenced ones, for any list
      whose active flags are the reference marks. */
  lemma TwoActiveIffTwoReferenced(ms: seq<Monitor>, res: Resource)
    requires |ms| == |res.monitors|
    requires forall i :: 0 <= i < |ms| ==> (ms[i].active <==> Referenced(res, i))
    ensures CountActive(ms) > 1 <==> exists i, j :: 0 <= i < j < |res.monitors| && Referenced(res, i) && Referenced(res, j)
  {
    CountActiveTwo(ms);
  }

  lemma CloneCondition(res: Resource)
    ensures CountActive(Marked(res).monitors) > 1 && |res.logicalMonitors| == 1 <==> CloneMode(res)
  {
    MarkedFacts(res);
    TwoActiveIffTwoReferenced(Marked(res).monitors, res);
  }

  lemma ResolveCloneFacts(st: Snapshot, logicalCount: nat)
    requires PrimaryInList(st)
    ensures SameBare(ResolveClone(st, logicalCount).monitors, st.monitors)
    ensures ResolveClone(st, logicalCount).primary == st.primary
    ensures forall i :: 0 <= i < |st.monitors| ==>
      ResolveClone(st, logicalCount).monitors[i].isPrimary == st.monitors[i].isPrimary
    ensures !(CountActive(st.monitors) > 1 && logicalCount == 1) ==> ResolveClone(st, logicalCount) == st
    ensures CountActive(st.monitors) > 1 && logicalCount == 1 ==>
      forall i :: 0 <= i < |st.monitors| ==> (ResolveClone(st, logicalCount).monitors[i].active <==> st.primary == Some(i))
  {
  }

  /** Two mirrored monitors behind one primary logical monitor: only the
      recorded primary, the last one referenced, stays active, while both keep
      `isPrimary` set. */
  lemma CloneScenario(a: ResourceMonitor, b: ResourceMonitor)
    requires a.specs != b.specs
    ensures var u := UpdateResourcesState(Ok(Resource([a, b], [LogicalMonitor(true, [a.specs, b.specs])])));
      && u.snapshot.primary == Some(1)
      && !u.snapshot.monitors[0].active && u.snapshot.monitors[1].active
      && u.snapshot.monitors[0].isPrimary && u.snapshot.monitors[1].isPrimary
  {
    var res := Resource([a, b], [LogicalMonitor(true, [a.specs, b.specs])]);
    var ms0 := Fresh(res.monitors);
    var refs := Refs(res.logicalMonitors);
    var lms := res.logicalMonitors;
    assert lms[1..] == [];
    assert Refs(lms[1..]) == [];
    assert refs == [Ref(true, a.specs), Ref(true, b.specs)];
    assert Find(ms0, a.specs) == Some(0);
    assert FindFrom(ms0, b.specs, 1) == Some(1);
    var st1 := Step(Snapshot(ms0, None), refs[0]);
    assert st1.primary == Some(0);
    FindSameBare(st1.monitors, ms0, b.specs);
    var st2 := Step(st1, refs[1]);
    assert refs[1..][1..] == [];
    assert Mark(st1, refs[1..]) == Mark(st2, refs[1..][1..]) == st2;
    assert Marked(res) == st2;
    assert st2.monitors[0].active && st2.monitors[1].active;
    assert |st2.monitors| == 2;
    assert CountActive(st2.monitors[1..][1..]) == 0;
    assert CountActive(st2.monitors[1..]) == 1;
    assert CountActive(st2.monitors) == 2;
  }
}

=== FILE: profiles.dfy ===
/** Profiles and the profile store: the persisted, ordered list of profiles,
    the matcher that compares a profile with the current monitors, and the
    cached active profile. */
module Profiles {
  import opened Wrappers
  import opened Monitors
  import Identity
  import ManagedConnects
  import opened Shared

  /** The plain record a profile is created from and persisted as. */
  datatype ProfileSpec = ProfileSpec(
    monitors: seq<Monitor>,
    name: string,
    fontScaleFactor: real,
    dashToDockIconSize: Option<int>)

  /** A profile: its public fields, its monitors and the key set derived from
      them when it was constructed. Monitors and keys are private to the profile. */
  datatype Profile = Profile(
    monitors: seq<Monitor>,
    name: string,
    fontScaleFactor: real,
    dashToDockIconSize: Option<int>,
    keys: set<string>)

  /** `toJSON`: everything but the key set. */
  function ToJSON(p: Profile): ProfileSpec {
    ProfileSpec(p.monitors, p.name, p.fontScaleFactor, p.dashToDockIconSize)
  }

  /** The `Profile` constructor: the key set holds the key of every monitor,
      computed with the store's serial setting of the moment. */
  function NewProfile(spec: ProfileSpec, withSerials: bool): (p: Profile)
    ensures ToJSON(p) == spec
    ensures forall k :: k in p.keys <==> k in Identity.Keys(spec.monitors, withSerials)
  {
    var ids := Identity.Identifier(spec.monitors, withSerials);
    assert forall k :: k in ids <==> k in multiset(Identity.Keys(spec.monitors, withSerials));
    Profile(spec.monitors, spec.name, spec.fontScaleFactor, spec.dashToDockIconSize, set k | k in ids)
  }

  // Matching.

  /** `matchesCurrentMonitors` as written: the number of current identifiers
      against the size of the key set, then membership of each identifier. */
  predicate MatchesAsWritten(p: Profile, current: seq<string>) {
    |current| == |p.keys| && forall i :: 0 <= i < |current| ==> current[i] in p.keys
  }

  /** The comparison `matchesCurrentMonitors` evidently intends: the current
      identifiers, taken as a set, equal the key set. */
  predicate Matches(p: Profile, current: seq<string>) {
    (set x | x in current) == p.keys
  }

  predicate NoDuplicates(s: seq<string>) {
    forall i, j :: 0 <= i < j < |s| ==> s[i] != s[j]
  }

  lemma {:induction false} DistinctCard(s: seq<string>)
    requires NoDuplicates(s)
    ensures |set x | x in s| == |s|
    decreases |s|
  {
    if |s| > 0 {
      DistinctCard(s[1..]);
      assert (set x | x in s) == {s[0]} + (set x | x in s[1..]);
      assert s[0] !in s[1..];
    }
  }

  lemma {:induction false} SetCardAtMost(s: seq<string>)
    ensures |set x | x in s| <= |s|
    decreases |s|
  {
    if |s| > 0 {
      SetCardAtMost(s[1..]);
      assert (set x | x in s) == {s[0]} + (set x | x in s[1..]);
    }
  }

  lemma {:induction false} DuplicateCard(s: seq<string>)
    requires !NoDuplicates(s)
    ensures |set x | x in s| < |s|
    decreases |s|
  {
    var i, j :| 0 <= i < j < |s| && s[i] == s[j];
    assert (set x | x in s) == {s[0]} + (set x | x in s[1..]);
    if i == 0 {
      assert s[0] in s[1..] by {
        assert s[1..][j - 1] == s[0];
      }
      assert (set x | x in s) == (set x | x in s[1..]);
      SetCardAtMost(s[1..]);
    } else {
      assert s[1..][i - 1] == s[1..][j - 1];
      DuplicateCard(s[1..]);
    }
  }

  lemma {:induction false} SubsetCard(a: set<string>, b: set<string>)
    requires a <= b
    ensures |a| <= |b|
    decreases |a|
  {
    if a != {} {
      var y :| y in a;
      SubsetCard(a - {y}, b - {y});
    }
  }

  lemma SubsetSameSize(a: set<string>, b: set<string>)
    requires a <= b && |a| == |b|
    ensures a == b
  {
    if a != b {
      var x :| x in b && x !in a;
      SubsetCard(a, b - {x});
    }
  }

  /** On a duplicate-free list of identifiers, the length-and-membership test
      is exactly set equality. */
  lemma MatchesAsWrittenOnDistinct(p: Profile, current: seq<string>)
    requires NoDuplicates(current)
    ensures MatchesAsWritten(p, current) <==> Matches(p, current)
  {
    DistinctCard(current);
    var cs := set x | x in current;
    if MatchesAsWritten(p, current) {
      SubsetSameSize(cs, p.keys);
    }
  }

  /** A profile saved from a topology in which two monitors share a key (two
      identical monitors with serials off) does not match that same topology
      under the length-and-membership test. */
  lemma MatchesAsWrittenMissesOwnTopology(spec: ProfileSpec, withSerials: bool)
    requires exists i, j ::
      0 <= i < j < |spec.monitors| && Identity.Key(spec.monitors[i], withSerials) == Identity.Key(spec.monitors[j], withSerials)
    ensures !MatchesAsWritten(NewProfile(spec, withSerials), Identity.Identifier(spec.monitors, withSerials))
  {
    var ks := Identity.Keys(spec.monitors, withSerials);
    var i, j :| 0 <= i < j < |spec.monitors|
      && Identity.Key(spec.monitors[i], withSerials) == Identity.Key(spec.monitors[j], withSerials);
    assert ks[i] == ks[j];
    DuplicateCard(ks);
    var p := NewProfile(spec, withSerials);
    assert p.keys == set x | x in ks;
  }

  /** The smallest such topology: two monitors of the same make, serials off. */
  lemma TwinMonitorsMissAsWritten(m: Monitor, name: string, scale: real)
    ensures var twins := [m, m.(index := m.index + 1, connector := m.connector + "2", serial := m.serial + "2")];
      !MatchesAsWritten(NewProfile(ProfileSpec(twins, name, scale, None), false), Identity.Identifier(twins, false))
  {
    var twins := [m, m.(index := m.index + 1, connector := m.connector + "2", serial := m.serial + "2")];
    assert Identity.Key(twins[0], false) == Identity.Key(twins[1], false);
    MatchesAsWrittenMissesOwnTopology(ProfileSpec(twins, name, scale, None), false);
  }

  /** The length-and-membership test also accepts a repeated identifier in
      place of a missing one. */
  lemma MatchesAsWrittenAcceptsRepeat(p: Profile, a: string, b: string)
    requires p.keys == {a, b} && a != b
    ensures MatchesAsWritten(p, [a, a]) && !Matches(p, [a, a])
  {
    assert (set x | x in [a, a]) == {a};
    assert b !in {a};
  }

  /** The corrected matcher accepts a profile exactly when the current
      topology and the saved one give rise to the same set of keys; in
      particular it accepts the topology the profile was saved from, in any
      order. */
  lemma MatchesSameKeys(spec: ProfileSpec, current: seq<Monitor>, withSerials: bool)
    ensures Matches(NewProfile(spec, withSerials), Identity.Identifier(current, withSerials)) <==>
      forall k :: k in Identity.Keys(current, withSerials) <==> k in Identity.Keys(spec.monitors, withSerials)
  {
    var ids := Identity.Identifier(current, withSerials);
    var p := NewProfile(spec, withSerials);
    assert forall k :: k in ids <==> k in multiset(Identity.Keys(current, withSerials));
    if Matches(p, ids) {
      forall k
        ensures k in Identity.Keys(current, withSerials) <==> k in Identity.Keys(spec.monitors, withSerials)
      {
        assert k in ids <==> k in (set x | x in ids);
      }
    }
  }

  lemma MatchesOwnTopology(spec: ProfileSpec, current: seq<Monitor>, withSerials: bool)
    requires multiset(current) == multiset(spec.monitors)
    ensures Matches(NewProfile(spec, withSerials), Identity.Identifier(current, withSerials))
  {
    Identity.KeysPermutation(current, spec.monitors, withSerials);
    var kc, ks := Identity.Keys(current, withSerials), Identity.Keys(spec.monitors, withSerials);
    assert forall k :: k in kc <==> k in multiset(kc);
    assert forall k :: k in ks <==> k in multiset(ks);
    MatchesSameKeys(spec, current, withSerials);
  }

  // The store.

  /** The cached active profile. `Slot(k)` refers to the profile object at
      position `k`; `Detached` holds one that was removed from the list while
      cached. */
  datatype Cache = Unresolved | Slot(index: nat) | Detached(profile: Profile)

  datatype Store = Store(
    profiles: seq<Profile>,
    cache: Cache,
    withSerials: bool,
    monitorsConfig: Snapshot,
    connections: ManagedConnects.Registry<Source>)

  predicate Valid(st: Store) {
    st.cache.Slot? ==> st.cache.index < |st.profiles|
  }

  /** The profile object the cache refers to. */
  function Cached(st: Store): Option<Profile>
    requires Valid(st)
  {
    match st.cache
    case Unresolved => None
    case Slot(k) => Some(st.profiles[k])
    case Detached(p) => Some(p)
  }

  /** The identifiers of the current monitors, with the store's serial setting. */
  function CurrentIdentifier(st: Store): seq<string> {
    Identity.Identifier(st.monitorsConfig.monitors, st.withSerials)
  }

  /** Position `k` holds the first profile that `matchesCurrentMonitors`
      accepts. The store follows the code and uses the as-written test. */
  predicate IsFirstMatch(ps: seq<Profile>, current: seq<string>, k: int) {
    && 0 <= k < |ps|
    && MatchesAsWritten(ps[k], current)
    && forall j :: 0 <= j < k ==> !MatchesAsWritten(ps[j], current)
  }

  /** When no monitor key repeats, the first profile the store picks is the
      first one the corrected matcher accepts. */
  lemma FirstMatchOnDistinct(ps: seq<Profile>, current: seq<string>, k: int)
    requires NoDuplicates(current)
    ensures IsFirstMatch(ps, current, k) <==>
      0 <= k < |ps| && Matches(ps[k], current) && forall j :: 0 <= j < k ==> !Matches(ps[j], current)
  {
    forall j | 0 <= j < |ps|
      ensures MatchesAsWritten(ps[j], current) <==> Matches(ps[j], current)
    {
      MatchesAsWrittenOnDistinct(ps[j], current);
    }
  }

  /** `Array.prototype.find` over the profiles, from position `from`. */
  function FirstMatchFrom(ps: seq<Profile>, current: seq<string>, from: nat): (r: Option<nat>)
    ensures r.Some? ==> from <= r.value < |ps| && MatchesAsWritten(ps[r.value], current)
    ensures r.Some? ==> forall j :: from <= j < r.value ==> !MatchesAsWritten(ps[j], current)
    ensures r.None? ==> forall j :: from <= j < |ps| ==> !MatchesAsWritten(ps[j], current)
    decreases |ps| - from
  {
    if from >= |ps| then None
    else if MatchesAsWritten(ps[from], current) then Some(from)
    else FirstMatchFrom(ps, current, from + 1)
  }

  datatype Lookup = Lookup(store: Store, profile: Option<Profile>)

  /** `getActiveProfile`: a cached profile is returned as is; otherwise the
      first profile matching the current monitors is looked up and, when one
      is found, cached. */
  function GetActiveProfile(st: Store): (l: Lookup)
    requires Valid(st)
    ensures Valid(l.store)
    ensures l.store == st.(cache := l.store.cache)
    ensures st.cache.Slot? ==> l == Lookup(st, Some(st.profiles[st.cache.index]))
    ensures st.cache.Detached? ==> l == Lookup(st, Some(st.cache.profile))
    ensures st.cache.Unresolved? && l.profile.None? ==>
      l.store == st && forall k :: 0 <= k < |st.profiles| ==> !MatchesAsWritten(st.profiles[k], CurrentIdentifier(st))
    ensures st.cache.Unresolved? && l.profile.Some? ==>
      exists k :: IsFirstMatch(st.profiles, CurrentIdentifier(st), k)
        && l.profile == Some(st.profiles[k]) && l.store.cache == Slot(k)
    ensures st.cache.Unresolved? && (exists k :: 0 <= k < |st.profiles| && MatchesAsWritten(st.profiles[k], CurrentIdentifier(st))) ==>
      l.profile.Some?
  {
    match st.cache
    case Slot(k) => Lookup(st, Some(st.profiles[k]))
    case Detached(p) => Lookup(st, Some(p))
    case Unresolved =>
      match FirstMatchFrom(st.profiles, CurrentIdentifier(st), 0)
      case None => Lookup(st, None)
      case Some(k) =>
        assert IsFirstMatch(st.profiles, CurrentIdentifier(st), k);
        Lookup(st.(cache := Slot(k)), Some(st.profiles[k]))
  }

  /** Asking again without an intervening update gives the same profile and
      changes nothing further. */
  lemma GetActiveProfileStable(st: Store)
    requires Valid(st)
    ensures GetActiveProfile(GetActiveProfile(st).store).profile == GetActiveProfile(st).profile
    ensures GetActiveProfile(GetActiveProfile(st).store).store == GetActiveProfile(st).store
  {
    var l := GetActiveProfile(st);
    if st.cache.Unresolved? && l.profile.Some? {
      var k :| IsFirstMatch(st.profiles, CurrentIdentifier(st), k)
        && l.profile == Some(st.profiles[k]) && l.store.cache == Slot(k);
    }
  }

  // Persistence.

  /** The `profiles` setting: a document `{profiles: [...]}`, possibly without
      the `profiles` member, or text that does not parse into one. */
  datatype Persisted = Unparsable | Document(profiles: Option<seq<ProfileSpec>>)

  /** `JSON.stringify({profiles})`. */
  function Encode(ps: seq<Profile>): Persisted {
    Document(Some(seq(|ps|, i requires 0 <= i < |ps| => ToJSON(ps[i]))))
  }

  /** The profiles a setting value yields, built with `withSerials`; `None`
      when it does not parse. A missing `profiles` member yields none. */
  function Parse(data: Persisted, withSerials: bool): Option<seq<Profile>> {
    match data
    case Unparsable => None
    case Document(None) => Some([])
    case Document(Some(specs)) =>
      Some(seq(|specs|, i requires 0 <= i < |specs| => NewProfile(specs[i], withSerials)))
  }

  /** Every profile's key set was computed with `withSerials`. */
  predicate BuiltWith(ps: seq<Profile>, withSerials: bool) {
    forall i :: 0 <= i < |ps| ==> ps[i] == NewProfile(ToJSON(ps[i]), withSerials)
  }

  /** Re-reading what was written yields the same profiles, provided their
      key sets were computed with the same serial setting. */
  lemma ParseEncode(ps: seq<Profile>, withSerials: bool)
    requires BuiltWith(ps, withSerials)
    ensures Parse(Encode(ps), withSerials) == Some(ps)
  {
    var r := Parse(Encode(ps), withSerials).value;
    assert |r| == |ps|;
    forall i | 0 <= i < |ps|
      ensures r[i] == ps[i]
    {
    }
    assert r == ps;
  }

  lemma ParseBuiltWith(data: Persisted, withSerials: bool)
    requires Parse(data, withSerials).Some?
    ensures BuiltWith(Parse(data, withSerials).value, withSerials)
  {
  }

  datatype Refresh = Refresh(store: Store, emitted: bool, errorLogged: bool)

  /** `#onUpdate` with `#fetchProfiles`: clears the cache, reads the serial
      setting (true when unset), then replaces the profiles with the parsed
      setting and emits `updated`, or, when the setting does not parse, logs
      an error and keeps the previous profiles. */
  function OnUpdate(st: Store, withSerials: Option<bool>, data: Persisted): (r: Refresh)
    ensures r.store.cache == Unresolved
    ensures r.store.withSerials == withSerials.GetOr(true)
    ensures r.store.monitorsConfig == st.monitorsConfig && r.store.connections == st.connections
    ensures data.Unparsable? ==> r.store.profiles == st.profiles && !r.emitted && r.errorLogged
    ensures data.Document? ==> r.emitted && !r.errorLogged && BuiltWith(r.store.profiles, r.store.withSerials)
    ensures data == Document(None) ==> r.store.profiles == []
    ensures data.Document? && data.profiles.Some? ==>
      |r.store.profiles| == |data.profiles.value|
      && forall i :: 0 <= i < |r.store.profiles| ==> ToJSON(r.store.profiles[i]) == data.profiles.value[i]
  {
    var w := withSerials.GetOr(true);
    var cleared := st.(cache := Unresolved, withSerials := w);
    match Parse(data, w)
    case None => Refresh(cleared, false, true)
    case Some(ps) =>
      ParseBuiltWith(data, w);
      Refresh(cleared.(profiles := ps), true, false)
  }

  /** The `ProfilesManager` constructor: subscribes to the settings and to the
      monitor snapshot (handler ids `settingsId` and `monitorsId`), then runs
      `#onUpdate` once. */
  method NewStore(withSerials: Option<bool>, data: Persisted, monitorsConfig: Snapshot,
                  settingsId: nat, monitorsId: nat) returns (r: Refresh)
    ensures Valid(r.store) && r.store.cache == Unresolved
    ensures r.store.withSerials == withSerials.GetOr(true)
    ensures r.emitted <==> data.Document?
    ensures r.errorLogged <==> data.Unparsable?
    ensures r.store.monitorsConfig == monitorsConfig
    ensures r.store.connections ==
      [ManagedConnects.Entry(ExtensionSettings, [settingsId]), ManagedConnects.Entry(MonitorsConfig, [monitorsId])]
    ensures ManagedConnects.Pairs(r.store.connections) ==
      [ManagedConnects.Call(ExtensionSettings, settingsId), ManagedConnects.Call(MonitorsConfig, monitorsId)]
    ensures data.Unparsable? ==> r.store.profiles == []
    ensures Parse(data, withSerials.GetOr(true)).Some? ==> Some(r.store.profiles) == Parse(data, withSerials.GetOr(true))
  {
    // The settings and the monitor snapshot exist and have `connect`, so both
    // `connect` calls take their success path, `ManagedConnects.Add`.
    var reg := ManagedConnects.Add(ManagedConnects.Add([], ExtensionSettings, settingsId), MonitorsConfig, monitorsId);
    assert reg == [ManagedConnects.Entry(ExtensionSettings, [settingsId]), ManagedConnects.Entry(MonitorsConfig, [monitorsId])];
    assert ManagedConnects.Pairs(reg[1..][1..]) == [];
    r := OnUpdate(Store([], Unresolved, false, monitorsConfig, reg), withSerials, data);
  }

  // Mutations; each persists the whole list.

  datatype Mutation = Mutation(store: Store, written: Persisted)

  /** `appendProfile`. */
  function AppendProfile(st: Store, spec: ProfileSpec): (m: Mutation)
    ensures |m.store.profiles| == |st.profiles| + 1
    ensures m.store.profiles[..|st.profiles|] == st.profiles
    ensures m.store.profiles[|st.profiles|] == NewProfile(spec, st.withSerials)
    ensures ToJSON(m.store.profiles[|st.profiles|]) == spec
    ensures m.store == st.(profiles := m.store.profiles)
    ensures m.written == Encode(m.store.profiles)
    ensures Valid(st) ==> Valid(m.store) && Cached(m.store) == Cached(st)
    ensures BuiltWith(st.profiles, st.withSerials) ==> BuiltWith(m.store.profiles, st.withSerials)
  {
    var ps := st.profiles + [NewProfile(spec, st.withSerials)];
    assert ps[..|st.profiles|] == st.profiles;
    Mutation(st.(profiles := ps), Encode(ps))
  }

  /** The fields `Object.assign` may overwrite, each present or absent; an
      icon size may be present with the value `undefined`. */
  datatype ProfileUpdate = ProfileUpdate(
    name: Option<string>,
    fontScaleFactor: Option<real>,
    dashToDockIconSize: Option<Option<int>>)

  function Assign(p: Profile, u: ProfileUpdate): Profile {
    p.(name := u.name.GetOr(p.name),
       fontScaleFactor := u.fontScaleFactor.GetOr(p.fontScaleFactor),
       dashToDockIconSize := u.dashToDockIconSize.GetOr(p.dashToDockIconSize))
  }

  /** `Object.assign(undefined, …)` throws. */
  datatype StoreError = NoProfileAt(idx: int)

  /** `updateProfile`: throws when there is no profile at `idx`; otherwise
      overwrites the given public fields of that profile in place. */
  function UpdateProfile(st: Store, idx: int, u: ProfileUpdate): (r: Result<Mutation, StoreError>)
    ensures r.Failure? <==> !(0 <= idx < |st.profiles|)
    ensures r.Success? ==>
      var ps, ps' := st.profiles, r.value.store.profiles;
      && |ps'| == |ps|
      && (forall j :: 0 <= j < |ps| && j != idx ==> ps'[j] == ps[j])
      && ps'[idx].monitors == ps[idx].monitors && ps'[idx].keys == ps[idx].keys
      && ps'[idx].name == (if u.name.Some? then u.name.value else ps[idx].name)
      && ps'[idx].fontScaleFactor == (if u.fontScaleFactor.Some? then u.fontScaleFactor.value else ps[idx].fontScaleFactor)
      && ps'[idx].dashToDockIconSize ==
           (if u.dashToDockIconSize.Some? then u.dashToDockIconSize.value else ps[idx].dashToDockIconSize)
    ensures r.Success? ==> r.value.store == st.(profiles := r.value.store.profiles)
    ensures r.Success? ==> r.value.written == Encode(r.value.store.profiles)
    ensures r.Success? && Valid(st) ==>
      Valid(r.value.store)
      && Cached(r.value.store) == (if st.cache == Slot(idx) then Some(r.value.store.profiles[idx]) else Cached(st))
    ensures r.Success? && BuiltWith(st.profiles, st.withSerials) ==> BuiltWith(r.value.store.profiles, st.withSerials)
  {
    if 0 <= idx < |st.profiles| then
      var ps := st.profiles[idx := Assign(st.profiles[idx], u)];
      Success(Mutation(st.(profiles := ps), Encode(ps)))
    else Failure(NoProfileAt(idx))
  }

  /** Where `splice(idx, 1)` starts: a negative `idx` counts from the end. */
  function SpliceStart(idx: int, len: nat): (s: nat)
    ensures s <= len
  {
    if idx < 0 then (if len + idx < 0 then 0 else len + idx)
    else if idx > len then len
    else idx
  }

  /** The list without position `s`. */
  function RemoveAt(ps: seq<Profile>, s: nat): (r: seq<Profile>)
    requires s < |ps|
    ensures |r| == |ps| - 1
    ensures forall j :: 0 <= j < s ==> r[j] == ps[j]
    ensures forall j :: s <= j < |r| ==> r[j] == ps[j + 1]
  {
    ps[..s] + ps[s + 1..]
  }

  /** The cache after position `s` is removed: it refers to the same object. */
  function ShiftCache(st: Store, s: nat): (c: Cache)
    requires s < |st.profiles|
    ensures Valid(st) ==> Valid(st.(profiles := RemoveAt(st.profiles, s), cache := c))
    ensures Valid(st) ==> Cached(st.(profiles := RemoveAt(st.profiles, s), cache := c)) == Cached(st)
  {
    match st.cache
    case Slot(k) => if k < s then Slot(k) else if k == s then Detached(st.profiles[k]) else Slot(k - 1)
    case Unresolved => Unresolved
    case Detached(p) => Detached(p)
  }

  /** Where `splice(idx, 1)` starts, for each sign of `idx`. */
  lemma SpliceCases(ps: seq<Profile>, idx: int)
    requires SpliceStart(idx, |ps|) < |ps|
    ensures var n, s := |ps|, SpliceStart(idx, |ps|);
      && (0 <= idx < n ==> s == idx)
      && (-n <= idx < 0 ==> RemoveAt(ps, s) == ps[..n + idx] + ps[n + idx + 1..])
      && (idx < -n ==> RemoveAt(ps, s) == ps[1..])
  {
  }

  lemma BuiltWithRemoveAt(ps: seq<Profile>, s: nat, withSerials: bool)
    requires s < |ps| && BuiltWith(ps, withSerials)
    ensures BuiltWith(RemoveAt(ps, s), withSerials)
  {
  }

  /** `removeProfile`: `splice(idx, 1)`, which never throws and removes nothing
      past the end. The cache keeps referring to the same profile object. */
  function RemoveProfile(st: Store, idx: int): (m: Mutation)
    ensures var ps, ps' := st.profiles, m.store.profiles;
      0 <= idx < |ps| ==>
        && |ps'| == |ps| - 1
        && (forall j :: 0 <= j < idx ==> ps'[j] == ps[j])
        && (forall j :: idx <= j < |ps'| ==> ps'[j] == ps[j + 1])
    ensures idx >= |st.profiles| ==> m.store.profiles == st.profiles
    ensures var n := |st.profiles|; -n <= idx < 0 ==>
      m.store.profiles == st.profiles[..n + idx] + st.profiles[n + idx + 1..]
    ensures idx < -|st.profiles| && |st.profiles| > 0 ==> m.store.profiles == st.profiles[1..]
    ensures SpliceStart(idx, |st.profiles|) == |st.profiles| ==> m.store == st
    ensures m.store == st.(profiles := m.store.profiles, cache := m.store.cache)
    ensures m.written == Encode(m.store.profiles)
    ensures Valid(st) ==> Valid(m.store) && Cached(m.store) == Cached(st)
    ensures BuiltWith(st.profiles, st.withSerials) ==> BuiltWith(m.store.profiles, st.withSerials)
  {
    var n := |st.profiles|;
    var s := SpliceStart(idx, n);
    if s == n then Mutation(st, Encode(st.profiles))
    else
      var ps := RemoveAt(st.profiles, s);
      SpliceCases(st.profiles, idx);
      var st' := st.(profiles := ps, cache := ShiftCache(st, s));
      assert BuiltWith(st.profiles, st.withSerials) ==> BuiltWith(ps, st.withSerials) by {
        if BuiltWith(st.profiles, st.withSerials) {
          BuiltWithRemoveAt(st.profiles, s, st.withSerials);
        }
      }
      Mutation(st', Encode(ps))
  }

  /** Removing the profile just appended restores the store. */
  lemma RemoveUndoesAppend(st: Store, spec: ProfileSpec)
    requires Valid(st)
    ensures RemoveProfile(AppendProfile(st, spec).store, |st.profiles|).store == st
  {
    var n := |st.profiles|;
    var st1 := AppendProfile(st, spec).store;
    assert SpliceStart(n, n + 1) == n;
    assert RemoveAt(st1.profiles, n) == st.profiles by {
      assert st1.profiles[..n] == st.profiles;
    }
    assert ShiftCache(st1, n) == st.cache;
  }

  /** After any mutation, the `changed` notification of the written setting
      re-reads the same profile list. */
  lemma MutationsRoundTrip(st: Store, spec: ProfileSpec, idx: int, u: ProfileUpdate)
    requires BuiltWith(st.profiles, st.withSerials)
    ensures var m := AppendProfile(st, spec); Parse(m.written, st.withSerials) == Some(m.store.profiles)
    ensures var m := RemoveProfile(st, idx); Parse(m.written, st.withSerials) == Some(m.store.profiles)
    ensures var r := UpdateProfile(st, idx, u);
      r.Success? ==> Parse(r.value.written, st.withSerials) == Some(r.value.store.profiles)
  {
    ParseEncode(AppendProfile(st, spec).store.profiles, st.withSerials);
    ParseEncode(RemoveProfile(st, idx).store.profiles, st.withSerials);
    var r := UpdateProfile(st, idx, u);
    if r.Success? {
      ParseEncode(r.value.store.profiles, st.withSerials);
    }
  }

  /** `disconnectAll`: releases the store's own subscriptions. */
  method Release(st: Store) returns (released: Store, calls: seq<ManagedConnects.Call<Source>>)
    ensures released == st.(connections := [])
    ensures calls == ManagedConnects.Pairs(st.connections)
  {
    var remaining;
    remaining, calls := ManagedConnects.DisconnectAll(st.connections);
    released := st.(connections := remaining);
  }
}

=== FILE: shared.dfy ===
/** Constants and host objects shared by the extension's modules. */
module Shared {

  /** The system's default text scaling factor. */
  const DefaultScalingFactor: real := 1.0

  /** The host objects whose signals the extension and its profile store subscribe to. */
  datatype Source =
    | SessionMode          // the shell's session mode ("updated")
    | ExtensionSettings    // the extension's own settings store ("changed")
    | MonitorsConfig       // the monitor snapshot component ("updated")
    | ProfileManager       // the profile store ("updated")
}

=== FILE: sorting.dfy ===
/** Sorting a list of strings into the order `Array.prototype.sort` produces
    without a comparator. Any correct sort gives the same result: a sorted
    permutation of a list of strings is unique. */
module Sorting {
  import Text

  predicate Sorted(s: seq<string>) {
    forall i, j :: 0 <= i < j < |s| ==> Text.Le(s[i], s[j])
  }

  lemma TailSorted(s: seq<string>)
    requires Sorted(s) && |s| > 0
    ensures Sorted(s[1..])
  {
    forall i, j | 0 <= i < j < |s| - 1
      ensures Text.Le(s[1..][i], s[1..][j])
    {
      assert s[1..][i] == s[i + 1] && s[1..][j] == s[j + 1];
    }
  }

  /** The head of a sorted list is no later than anything after it. */
  lemma HeadBelowRest(s: seq<string>)
    requires Sorted(s) && |s| > 0
    ensures forall y :: y in multiset(s[1..]) ==> Text.Le(s[0], y)
  {
    forall y | y in multiset(s[1..])
      ensures Text.Le(s[0], y)
    {
      assert y in s[1..];
      var k :| 0 <= k < |s[1..]| && s[1..][k] == y;
      assert s[k + 1] == y;
    }
  }

  lemma PrependSorted(h: string, t: seq<string>)
    requires Sorted(t)
    requires forall y :: y in multiset(t) ==> Text.Le(h, y)
    ensures Sorted([h] + t)
  {
    var s := [h] + t;
    forall i, j | 0 <= i < j < |s|
      ensures Text.Le(s[i], s[j])
    {
      if i == 0 {
        assert s[j] == t[j - 1];
        assert t[j - 1] in multiset(t);
      } else {
        assert s[i] == t[i - 1] && s[j] == t[j - 1];
      }
    }
  }

  /** Inserts `x` into a sorted list, keeping it sorted. */
  function Insert(x: string, s: seq<string>): (r: seq<string>)
    requires Sorted(s)
    ensures Sorted(r)
    ensures multiset(r) == multiset(s) + multiset{x}
    decreases |s|
  {
    if |s| == 0 then [x]
    else if Text.Le(x, s[0]) then
      HeadBelowRest(s);
      assert s == [s[0]] + s[1..];
      assert forall y :: y in multiset(s) ==> Text.Le(x, y) by {
        forall y | y in multiset(s)
          ensures Text.Le(x, y)
        {
          if y != s[0] {
            Text.LeTransitive(x, s[0], y);
          }
        }
      }
      PrependSorted(x, s);
      [x] + s
    else
      TailSorted(s);
      var t := Insert(x, s[1..]);
      Text.LeTotal(x, s[0]);
      HeadBelowRest(s);
      assert s == [s[0]] + s[1..];
      PrependSorted(s[0], t);
      [s[0]] + t
  }

  /** Insertion sort. */
  function Sort(s: seq<string>): (r: seq<string>)
    ensures Sorted(r)
    ensures multiset(r) == multiset(s)
    decreases |s|
  {
    if |s| == 0 then []
    else
      assert s == [s[0]] + s[1..];
      Insert(s[0], Sort(s[1..]))
  }

  /** Two sorted lists holding the same strings, counted with multiplicity, are equal. */
  lemma {:induction false} SortedUnique(a: seq<string>, b: seq<string>)
    requires Sorted(a) && Sorted(b) && multiset(a) == multiset(b)
    ensures a == b
    decreases |a|
  {
    assert |a| == |multiset(a)| == |multiset(b)| == |b|;
    if |a| > 0 {
      assert a[0] in multiset(b);
      var j :| 0 <= j < |b| && b[j] == a[0];
      assert b[0] in multiset(a);
      var i :| 0 <= i < |a| && a[i] == b[0];
      if j > 0 {
        assert Text.Le(b[0], a[0]);
      } else {
        Text.LeReflexive(a[0]);
      }
      if i > 0 {
        assert Text.Le(a[0], b[0]);
      } else {
        Text.LeReflexive(a[0]);
      }
      Text.LeAntisymmetric(a[0], b[0]);
      assert a == [a[0]] + a[1..];
      assert b == [b[0]] + b[1..];
      calc {
        multiset(a[1..]);
        multiset(a) - multiset{a[0]};
        multiset(b) - multiset{b[0]};
        multiset(b[1..]);
      }
      TailSorted(a);
      TailSorted(b);
      SortedUnique(a[1..], b[1..]);
    }
  }
}

=== FILE: text.dfy ===
/** Strings as the modelled code compares and builds them. */
module Text {

  /** `a` sorts no later than `b`: character by character, a proper prefix first.
      This is the order the default comparator of `Array.prototype.sort` uses. */
  predicate Le(a: string, b: string)
    decreases |a|
  {
    if |a| == 0 then true
    else if |b| == 0 then false
    else if a[0] != b[0] then a[0] < b[0]
    else Le(a[1..], b[1..])
  }

  lemma {:induction false} LeReflexive(a: string)
    ensures Le(a, a)
    decreases |a|
  {
    if |a| > 0 {
      LeReflexive(a[1..]);
    }
  }

  lemma {:induction false} LeTotal(a: string, b: string)
    ensures Le(a, b) || Le(b, a)
    decreases |a|
  {
    if |a| > 0 && |b| > 0 && a[0] == b[0] {
      LeTotal(a[1..], b[1..]);
    }
  }

  lemma {:induction false} LeAntisymmetric(a: string, b: string)
    requires Le(a, b) && Le(b, a)
    ensures a == b
    decreases |a|
  {
    if |a| > 0 && |b| > 0 {
      LeAntisymmetric(a[1..], b[1..]);
      assert a == [a[0]] + a[1..];
      assert b == [b[0]] + b[1..];
    }
  }

  lemma {:induction false} LeTransitive(a: string, b: string, c: string)
    requires Le(a, b) && Le(b, c)
    ensures Le(a, c)
    decreases |a|
  {
    if |a| > 0 && |b| > 0 && |c| > 0 && a[0] == b[0] && b[0] == c[0] {
      LeTransitive(a[1..], b[1..], c[1..]);
    }
  }

  /** `parts.join(sep)`. */
  function Join(parts: seq<string>, sep: string): string
  {
    if |parts| == 0 then ""
    else if |parts| == 1 then parts[0]
    else parts[0] + sep + Join(parts[1..], sep)
  }
}

=== FILE: wrappers.dfy ===
/** Optional values and results with an error, used wherever the modelled code
    returns `undefined`/`null` or throws. */
module Wrappers {

  /** A value that may be absent (`undefined` or `null` in the modelled code). */
  datatype Option<+T> = None | Some(value: T) {

    /** The value, or `default` when absent: the `??` operator. */
    function GetOr(default: T): T {
      match this
      case Some(v) => v
      case None => default
    }
  }

  /** The outcome of an operation that may throw. */
  datatype Result<+R, +E> = Success(value: R) | Failure(error: E)
}
